=== FILE: README.md ===
# Steward command resolution, modelled in Dafny

Steward is a browser extension with a command box. Plugins register commands:
- keyword commands, such as `bm` for bookmarks;
- regexp commands, which claim input matching a pattern;
- "other" commands, which are fallbacks;
- search providers, which suggest results for any single word.

Every keystroke runs through a fixed four-stage resolver. The stages are regexp, search, keyword and fallback. The first stage that produces something settles the keystroke.

This project models that resolver and two plugins with precise bookkeeping:
- the usage counter of the extension-enabling plugin;
- the bookmark plugin's result shaping.

Everything is a pure function over immutable data. Browser calls are modelled as explicit inputs:
- the stored configuration;
- the plugins' handlers and providers;
- the regular-expression test of regexp commands;
- the storage contents;
- the clock;
- the bookmark store's answer.

Browser calls that cause something are modelled as explicit outputs: events or actions.

Modules:
- `Wrappers`: `Option`.
- `Text`: JavaScript's `\s`, `\w` and line terminators, ASCII case folding, `indexOf` containment, and string order.
- `Model`: commands, plugins, result items, handler replies and the command-box session.
- `Registry`: the keyword map `commands`. It is a JavaScript object, so it is modelled as an insertion-ordered association list. Reassigning a key keeps its position.
- `Classify`: `classifyPlugins`. This covers the stored-configuration merge and the routing of every command into one of the four pools. It is proved equal to independent reference definitions.
- `Matcher`: the composite keyword pattern `^((?:k1|k2|…))\s(?:\-(\w+))?\s?(.*)$` with flag `i`, as an explicit string function. It also gives exact statements of when the pattern matches and how the input splits.
- `Search`: `findMatchedPlugins`, `findRegExpMatched` and `searchInContext`.
- `Pipeline`: the four stages, the final `catch`, and `onInput`.
- `Usage`: the record update of `addRecord`, `createObj4Storage`, the annotation and ordering in `sortExtensions`, and the filter of `getExtensions`.
- `Bookmarks`: `searchBookmark`, the item mapping of `onInput`, and the action choice of `onEnter`.

### Behaviour reproduced as written
- The regexp finder picks commands whose own `regExp` is set, but tests the pattern of the first command of their plugin. A plugin whose command list is empty makes it throw. The finder runs synchronously, before the promise chain exists, so that error escapes from `onInput` itself: the final `catch` never sees it.
- A search provider's synchronous results are dropped, because `res.concat(...)` is never assigned. Only results delivered through a promise count. A provider returning `undefined` or `null` makes the stage throw, and the thrown error is the answer.
- An empty search result ends the search stage with `resolve(true)`. That makes the keyword stage skip parsing, so control goes straight to the fallback.
- The keyword is matched case-insensitively. It is then looked up under the casing typed, so `BM foo` settles the keystroke with no handler and an `undefined` answer.
- The final `catch` turns a falsy synchronous reason into `undefined`. A promise reason is always truthy, so it is kept. The fallback's reply does not pass through the `catch`, so a falsy fallback value survives.
- Merging stored commands onto a newer plugin: stored properties win, built-in properties the stored copy lacks survive, and built-in commands past the end of the stored list survive. This is `$.extend(true, plugin.commands, stored)`.
- A search provider that returns nothing is not isolated: it ends the stage, and the thrown error is the answer.

## Model

| member | source | states |
|---|---|---|
| Text.ToLower | js/plugins/on.js:29 | Lower-casing keeps the length, leaves no ASCII capital, and is equal to the input ignoring case. |
| Registry.Lookup | extension/js/main/main.js:176 | `commands[cmd]` finds nothing exactly when no key equals `cmd` character for character; a hit is the command registered under that exact key. |
| Registry.Put | extension/js/main/main.js:391 | Assigning an existing key keeps the key order; a new key is appended at the end. |
| Registry.PutLookup | extension/js/main/main.js:390-396 | After assigning `k`, looking up `k` gives the new command and every other key gives what it gave before. |
| Registry.PutKeepsKeysUnique | extension/js/main/main.js:391 | Assignment never creates a second property with the same name. |
| Classify.DeepMerge | extension/js/main/main.js:368 | The merged list is as long as the longer list. The stored command's defined properties win at every index. Built-in properties survive where the stored command lacks them. Every property comes from one of the two lists. Built-in commands past the stored list are kept unchanged. |
| Classify.DeepMergeIdempotent | extension/js/main/main.js:368 | Merging the same stored commands a second time changes nothing. |
| Classify.EffectiveCommands | extension/js/main/main.js:365-372 | A missing configuration or plugin record falls back to the built-in list. A stored version that is not older (absent counts as 1) is used as stored. An older one is deep-merged with the stored list (`DeepMerge`, stored properties winning), every built-in index surviving, and the plugin's own list becomes the merge. |
| Classify.LastForIsLast | extension/js/main/main.js:390-396 | The reference for the keyword map, `LastFor`, finds nothing iff no keyword command was registered under the key, and otherwise finds the last one that was. |
| Classify.AddCommandsLists | extension/js/main/main.js:376-398 | `AddCommands`, the `forEach` over a command list with `Route` as its `switch`, appends exactly the list's regexp commands and its other commands, in order, and leaves the providers alone. |
| Classify.AddCommandsLookup | extension/js/main/main.js:376-398 | After `AddCommands`, a key maps to the list's last keyword command for it (`Route`'s keyword and `default` branches), or to what it mapped to before. |
| Classify.AddCommandsUnique | extension/js/main/main.js:391 | The keyword map never holds a key twice. |
| Classify.AddPluginsPools | extension/js/main/main.js:360-403 | `AddPlugins`, the `forEach` over the plugin list: the pools equal the reference definitions over all registered commands: regexp and fallback lists in order, providers in order, and the last keyword registration per key. |
| Classify.ClassifyPools | extension/js/main/main.js:359-408 | `ClassifyPlugins`: every command lands in exactly the pool its type names. The last keyword registration wins, and a key has no entry iff no keyword command was registered under it. Plugins without a command array become providers in order, and the host provider comes last in a content page. |
| Matcher.WordRun | extension/js/main/main.js:424 | `\w+` takes the longest run of word characters. |
| Matcher.Tail | extension/js/main/main.js:424 | After `cmd\s`, the rest of the pattern matches any text without a line terminator, and the captured query never holds one. |
| Matcher.TailTiles | extension/js/main/main.js:424 | What follows `cmd\s` splits into the `-flag` text, at most one whitespace character (taken whenever present), and the query to the end. |
| Matcher.TailFlag | extension/js/main/main.js:424 | The captured flag is a maximal non-empty run of word characters, and it is captured whenever a `-` followed by a word character starts the rest. |
| Matcher.FirstFrom | extension/js/main/main.js:424 | Alternatives are tried in order and the first one under which the whole pattern matches is chosen; none is chosen exactly when none matches. |
| Matcher.ParseCommandFirstMatch | extension/js/main/main.js:423-424 | `ParseCommand`, the match against the composite pattern: the parse fails iff no key alternative matches; otherwise it is the capture of the first alternative that does. |
| Matcher.ParseCommandHead | extension/js/main/main.js:158-161 | A parsed `cmd` is the input's own prefix, in its own casing, equal to some key ignoring case, and followed by whitespace. |
| Matcher.ParseCommandTail | extension/js/main/main.js:424 | After `cmd` and one whitespace character, the input holds the flag text, at most one more whitespace character (taken whenever present), and the query up to the end, which has no line terminator. |
| Matcher.NoSpaceNoMatch | extension/js/main/main.js:424 | An input with no whitespace never matches. |
| Matcher.SingleLineMatch | extension/js/main/main.js:424 | On single-line input the pattern matches iff the input starts with a key, ignoring case, followed by whitespace. |
| Matcher.ParseExamplePlain | extension/js/main/main.js:423-424 | `bm foo` with key `bm` gives command `bm`, no flag and query `foo`. |
| Matcher.ParseExampleNoKey | extension/js/main/main.js:424 | `bmx foo` with key `bm` does not match. |
| Matcher.ParseExampleFlag | extension/js/main/main.js:423-424 | `BMD -a x` with keys `bm` and `bmd` gives command `BMD` as typed, flag `a` and query `x`. |
| Matcher.KeyAtExample | extension/js/main/main.js:424 | Keys match ignoring case and must be followed by a space: `bmd` matches `BMD -a x`, `bm` does not. |
| Search.Probe | extension/js/main/main.js:51 | A command without its own `regExp` is skipped. One with it throws iff its plugin has no commands, and otherwise succeeds iff the plugin's first command has no pattern or that pattern matches. |
| Search.FindFrom | extension/js/main/main.js:49-53 | The finder returns the first command whose probe matches, misses iff every probe fails, and throws at the first command whose plugin has no commands. |
| Search.FindRegExpMatched | extension/js/main/main.js:49-53 | Over the whole list: a miss iff every probe fails; otherwise the first command whose probe does not fail, found or throwing. |
| Search.RegExpTestsFirstCommandOfPlugin | extension/js/main/main.js:51 | A second regexp command of a plugin is never found by its own pattern: the probe tests the plugin's first command. |
| Search.FindMatchedPlugins | extension/js/main/main.js:30-47 | Every suggestion has key `plugins` and names a registered keyword key. |
| Search.FindMatchedPluginsSound | extension/js/main/main.js:35 | Only keys containing the query are suggested. |
| Search.FindMatchedPluginsComplete | extension/js/main/main.js:34-44 | Every key containing the query is suggested. |
| Search.FindMatchedPluginsDistinct | extension/js/main/main.js:34-44 | No key is suggested twice. |
| Search.FindMatchedPluginsDescribe | extension/js/main/main.js:36-42 | Each suggestion carries the icon, the `key: title` title and the subtitle (or empty) of the command registered under its key. |
| Search.SortByHost | extension/js/main/main.js:90-91 | In a content page, providers are ordered by host with absent hosts last, as a permutation of the input. |
| Search.QueryOrder | extension/js/main/main.js:90-94 | Providers are asked in registration order, or inside a content page in an order sorted by host that is a permutation of it. |
| Search.SyncListsDropped | extension/js/main/main.js:99-103 | When no provider answers with a promise, the providers contribute nothing, whatever lists they return synchronously. |
| Search.Gather | extension/js/main/main.js:96-112 | The stage throws iff some provider returns nothing. Otherwise every provider is queried once, in order, with the query, and the result is every promise's list concatenated in provider order; synchronous lists add nothing. |
| Search.GatherCrashPrefix | extension/js/main/main.js:96-99 | When the stage throws, there is a first provider that returned nothing, and exactly the providers up to and including it were queried, in order. |
| Search.SearchInContext | extension/js/main/main.js:85-113 | Every provider is queried once, in registration order, or by host inside a content page. The stage throws iff some provider returns nothing. When it throws, the providers were queried in that order up to the first that returned nothing. Otherwise it gathers every promise's list in query order. |
| Pipeline.CallCommand | extension/js/main/main.js:74-83 | An undefined command gives `undefined` and does nothing; otherwise the session records the command and its key before the handler runs with the argument. |
| Pipeline.Catch | extension/js/main/main.js:209-213 | A promise reason settles to its value. A synchronous reason is kept iff it is truthy, and otherwise becomes `undefined`. |
| Pipeline.RegexpStage | extension/js/main/main.js:115-125 | The stage passes on exactly when the finder misses, and throws exactly when a probe throws. On a hit, the hit command's handler is called once, on the raw input, and the stage rejects with its reply. |
| Pipeline.SearchStage | extension/js/main/main.js:127-150 | Input with a space passes on untouched. Otherwise the providers are queried. A provider returning nothing resolves the stage with the thrown error. A non-empty combined list resolves with that list, and an empty one makes the next stage skip parsing. |
| Pipeline.ProviderNothingIsAnswer | extension/js/main/main.js:127-213 | A single-word keystroke that no regexp command claims, with a provider returning nothing, settles with that thrown error as the answer, after querying the providers up to that one and running no handler. |
| Pipeline.Dispatch | extension/js/main/main.js:164-179 | A parsed command always resolves. The input is saved first, the change of command is tracked iff `lastcmd` differs, and `lastcmd` and `query` follow the parse. |
| Pipeline.CommandStage | extension/js/main/main.js:152-182 | Told to go through, or given input that does not parse to a non-empty command, the stage passes on unchanged. Otherwise it resolves, with only save, track and handler events. |
| Pipeline.DefaultStage | extension/js/main/main.js:184-188 | Only the first fallback command runs, with the whole input, and its reply value is the answer; with no fallback the answer is `undefined`. |
| Pipeline.Begin | extension/js/main/main.js:200-203 | A keystroke sets `str` and clears `cmd`, `param` and `query`; `lastcmd` and the last command survive. |
| Pipeline.OnInput | extension/js/main/main.js:193-213 | Empty input only empties the box; any other input is recorded in the session and never empties it. `onInput` throws iff the regexp finder throws, with no handler or provider run. |
| Pipeline.RegexpShortCircuits | extension/js/main/main.js:115-125 | When a regexp command matches, it alone handles the raw input and its caught reply is the answer; no provider, parse or fallback runs. |
| Pipeline.RegexpCrash | extension/js/main/main.js:51 | A regexp command of a plugin with no commands makes `onInput` throw: no answer settles, the session is reset, and no handler runs. |
| Pipeline.SpaceBypassesSearch | extension/js/main/main.js:131 | Input containing a space never queries a provider. |
| Pipeline.SearchResolves | extension/js/main/main.js:138-145 | A non-empty combined search list is the answer; only provider queries happen. |
| Pipeline.PromisedItemsResolve | extension/js/main/main.js:99-109 | One provider's promise delivering a non-empty list settles a single-word keystroke, with an answer holding all of that list. |
| Pipeline.EmptySearchSkipsParsing | extension/js/main/main.js:144-155 | After an empty search, nothing is parsed, saved or tracked, and the fallback's value is the answer. |
| Pipeline.KeywordAlwaysTerminates | extension/js/main/main.js:163-179 | A parsed keyword always settles the keystroke. The input is saved. A change of command is tracked exactly when `lastcmd` differs. `lastcmd`, `param` and `query` follow the parse. An unregistered casing gives `undefined` with no handler; a registered one is called with the query, and its caught reply is the answer. The fallback never runs. |
| Pipeline.FalsyCollapses | extension/js/main/main.js:209-213 | A falsy synchronous reason becomes `undefined`. |
| Pipeline.NoParseFallsBack | extension/js/main/main.js:158-188 | Input with a space that no regexp command claims and that does not parse to a non-empty command ends exactly as the fallback stage does. |
| Pipeline.DefaultNotCaught | extension/js/main/main.js:184-188 | A falsy fallback reply reaches the caller unchanged. |
| Usage.CreateObj4Storage | js/plugins/on.js:112-126 | A fresh record has the given id and exactly one query entry, with count 1 and the current time. |
| Usage.AddRecord | js/plugins/on.js:77-110 | An unseen id gets a fresh record. A seen query counts one more with its date kept. A new query of a seen id starts at 1. Every other id and query is unchanged. |
| Usage.AddRecordCount | js/plugins/on.js:88-106 | Recording raises the count of that id and query by exactly one and no other count. |
| Usage.Annotate | js/plugins/on.js:55-69 | Each extension keeps its place and gets its stored count for the query, or 0 when its record or the query is missing. |
| Usage.InsertByNum | js/plugins/on.js:42-44 | Inserting into a list ordered by count keeps it ordered, adding exactly the new element. |
| Usage.SortByNum | js/plugins/on.js:71 | The sorted list is a permutation ordered by count, largest first. |
| Usage.SortByNumStable | js/plugins/on.js:42-44 | Extensions with equal counts keep their input order. |
| Usage.LargerCountFirst | js/plugins/on.js:43 | An extension with a strictly larger count comes before one with a smaller count. |
| Usage.GetExtensions | js/plugins/on.js:17-25 | Exactly the extensions whose name matches and whose `enabled` flag equals the requested one are kept. |
| Usage.GetExtensionsAppend | js/plugins/on.js:19-21 | The filter works piecewise, so the kept extensions keep their order and multiplicity. |
| Usage.OnInput | js/plugins/on.js:27-34 | Exactly the disabled extensions whose name matches the lower-cased key are listed, each once, with their counts under the key as typed, largest first. |
| Usage.OnEnter | js/plugins/on.js:36-40 | Choosing an extension enables it and then refreshes the list; its count under the query rises by one and no other count changes. |
| Usage.ChosenRanksHigher | js/plugins/on.js:36-75 | After a choice, the same extension is annotated with a count one higher for the same query. |
| Bookmarks.RequestFor | extension/js/plugins/browser/bookmark.js:21-30 | An empty query asks for the 10 most recent bookmarks; any other query searches for it. |
| Bookmarks.WithUrl | extension/js/plugins/browser/bookmark.js:33-35 | Exactly the bookmarks with a url are kept. |
| Bookmarks.WithUrlAppend | extension/js/plugins/browser/bookmark.js:33-35 | The filter works piecewise, so the kept bookmarks keep their order and multiplicity. |
| Bookmarks.WithUrlKeepsLinks | extension/js/plugins/browser/bookmark.js:33-35 | A list whose entries all have urls passes the filter unchanged. |
| Bookmarks.WithUrlIdempotent | extension/js/plugins/browser/bookmark.js:33-35 | Filtering twice is filtering once. |
| Bookmarks.SearchBookmark | extension/js/plugins/browser/bookmark.js:21-39 | Search hits are narrowed to exactly those with a url, in order (the url filter). Recent bookmarks are passed on unfiltered. A missing answer is an empty list. |
| Bookmarks.ToItems | extension/js/plugins/browser/bookmark.js:48-65 | Each bookmark gives one item, in order. The item has the command's key, the bookmark's id, url and title, and no warning. Its description is the url unless the command has `shiftKey`. |
| Bookmarks.ItemsRoundTrip | extension/js/plugins/browser/bookmark.js:56-64 | The bookmarks can be read back from the items unchanged. |
| Bookmarks.OnInput | extension/js/plugins/browser/bookmark.js:41-70 | There is one item per selected bookmark, in order, and each item carries its own bookmark's id, url and title. Every item has the command's key and is not a warning. For a non-empty query every item has a url. |
| Bookmarks.SliceEnd | extension/js/plugins/browser/bookmark.js:77 | `slice(0, end)`: whole list for an undefined end, counted from the back for a negative one, clamped otherwise. |
| Bookmarks.OnEnter | extension/js/plugins/browser/bookmark.js:72-93 | `bm` with shift opens the listed bookmarks' urls up to the maximum, in order. `bm` without shift opens the item's url. `bmd` removes the item's bookmark and then refreshes the list. Any other command does nothing. |
| Bookmarks.OpensAtMost | extension/js/plugins/browser/bookmark.js:75-82 | With shift and a non-negative maximum, exactly `min(max, n)` tabs open, `n` being the list length. |

## Left out
- Promises and timing are not modelled. Every handler and provider reply is treated as already settled, as `Sync` or `Async` (promise) values. Rejected promises from handlers and providers, and ordering across stale keystrokes, are concurrency concerns.
- Handlers that throw synchronously are not modelled: a handler is a function to a reply. A throw from a provider would end the search stage like one that returns nothing. A throw from a regexp handler would escape from `onInput`, like a throwing regexp probe.
- A truthy value that is not a list is kept opaque. A non-empty string has a `length`, so `_.flatten` would keep it in a search result, but provider replies are modelled as lists of items only.
- Analytics (`_gaq`), `storage.h5` and the browser's extension, bookmark, tab and storage interfaces are modelled only as events, inputs and actions.
- Rendering is left out: `createItem`, the focus handlers, wallpaper, and the `show`, `clear` and `empty` bindings are UI.
- The `enter` binding of the command box (extension/js/main/main.js:269-315) is left out. Its effects are tabs, the clipboard, `postMessage` and closing the box. It calls a plugin's `onEnter` with only the item and the command, so through this caller the bookmark plugin's shift branch is not reached.
- `util.genCommands`, `util.matchText` and `util.wrapWithMaxNumIfNeeded` are not part of this model. The matcher and the description wrapper are parameters.
- The keyword pattern is modelled for keys that are plain text with no regular-expression metacharacters. Case folding covers ASCII letters only.
- Text.ToLower: lower-cases ASCII letters only, not the full Unicode mapping of `toLowerCase`.
- Registry: keys that look like array indices are ordered like any other key, although JavaScript lists them first, and inherited `Object.prototype` properties are not modelled.
- Search.SortByHost: the model compares hosts by code point, not by UTF-16 unit. It does not state that underscore's `sortBy` is stable.
- Usage.SortByNum: the `NaN` tie rests on stored counts being positive, as `addRecord` keeps them. A stored count of 0 would tie with an extension that has no record. For that pair, `b.update - a.upate` is `b.update - 0`, a date, which would order the two by date.
- Usage.SortByNum: the tie-break of `sortExtFn` compares `update` with the misspelt `upate`. That yields `NaN`, which the engine's sort treats as equal, so ties keep their input order. The model sorts stably by count and does not model an engine whose sort is unstable.
- Usage.OnInput: when storage holds no `ext` record, `sortExtensions` shows the unsorted list. For a non-empty list it then throws while reading the missing record; for an empty list nothing is read and the callback runs a second time with `[]`. That path is not modelled, and the store is always a map.
- The regexp test of regexp commands is a parameter. Their pattern's round trip through stored JSON is not modelled.

=== FILE: bookmark.dfy ===
/**
 * The bookmark plugin: the bookmarks it asks the browser for, the result items it
 * builds from them, and what pressing enter on an item does.
 */
module Bookmarks {
  import opened Wrappers
  import opened Model

  /** A bookmark tree node as the browser returns it; folders have no url. */
  datatype Bookmark = Bookmark(id: string, url: Option<string>, title: string)

  /** The request `searchBookmark` sends to the browser's bookmark store. */
  datatype Request = GetRecent(limit: nat) | SearchFor(query: string)

  /** The ten most recent bookmarks for an empty query, a search otherwise. */
  function RequestFor(query: string): (r: Request)
    ensures r.GetRecent? <==> query == ""
    ensures r.GetRecent? ==> r.limit == 10
    ensures r.SearchFor? ==> r.query == query
  {
    if query == "" then GetRecent(10) else SearchFor(query)
  }

  /** The bookmarks of `s` that have a url, in order. */
  function WithUrl(s: seq<Bookmark>): (r: seq<Bookmark>)
    ensures forall b :: b in r ==> b in s && b.url.Some?
    ensures forall b :: b in s && b.url.Some? ==> b in r
    ensures |r| <= |s|
  {
    if |s| == 0 then []
    else
      assert s == [s[0]] + s[1..];
      (if s[0].url.Some? then [s[0]] else []) + WithUrl(s[1..])
  }

  /** Filtering a list whose every entry has a url changes nothing. */
  lemma {:induction false} WithUrlKeepsLinks(s: seq<Bookmark>)
    requires forall i :: 0 <= i < |s| ==> s[i].url.Some?
    ensures WithUrl(s) == s
  {
    if |s| > 0 {
      WithUrlKeepsLinks(s[1..]);
      assert s == [s[0]] + s[1..];
    }
  }

  /**
   * The filter works piecewise, so it keeps the order and the multiplicity of the
   * bookmarks it keeps: with the kept cases above, this pins the result down.
   */
  lemma {:induction false} WithUrlAppend(a: seq<Bookmark>, b: seq<Bookmark>)
    ensures WithUrl(a + b) == WithUrl(a) + WithUrl(b)
    decreases |a|
  {
    if |a| == 0 {
      assert a + b == b;
    } else {
      assert (a + b)[0] == a[0];
      assert (a + b)[1..] == a[1..] + b;
      WithUrlAppend(a[1..], b);
    }
  }

  /** The filter is idempotent. */
  lemma WithUrlIdempotent(s: seq<Bookmark>)
    ensures WithUrl(WithUrl(s)) == WithUrl(s)
  {
    var r := WithUrl(s);
    assert forall i :: 0 <= i < |r| ==> r[i] in r;
    WithUrlKeepsLinks(r);
  }

  /**
   * `searchBookmark(query)` given the browser's answer to `RequestFor(query)`: a missing
   * answer is an empty list; recent bookmarks are taken as they come, search hits are
   * narrowed to those with a url.
   */
  function SearchBookmark(query: string, response: Option<seq<Bookmark>>): (r: seq<Bookmark>)
    ensures query != "" ==> forall b :: b in r ==> b.url.Some?
    ensures query == "" ==> r == response.GetOr([])
    ensures forall b :: b in r ==> b in response.GetOr([])
    ensures query != "" ==> forall b :: b in response.GetOr([]) && b.url.Some? ==> b in r
    ensures query != "" ==> r == WithUrl(response.GetOr([]))
  {
    var list := response.GetOr([]);
    if query == "" then list else WithUrl(list)
  }

  /** The bookmark a result item was built from. */
  function Source(it: Item): Bookmark {
    Bookmark(it.id, it.url, it.title)
  }

  /**
   * The item mapping in `onInput`: one item per bookmark, in order, keyed by the command,
   * never a warning; the description is the url unless the command has `shiftKey`, when
   * `wrapDesc` (the numbered description of the shared utility) is used instead.
   */
  function ToItems(list: seq<Bookmark>, command: Command, icon: Option<string>, wrapDesc: (Bookmark, nat) -> Option<string>): (r: seq<Item>)
    ensures |r| == |list|
    ensures forall i :: 0 <= i < |r| ==> r[i].key == command.key && !r[i].isWarn && r[i].icon == icon
    ensures forall i :: 0 <= i < |r| ==> r[i].id == list[i].id && r[i].url == list[i].url && r[i].title == list[i].title
    ensures command.shiftKey != Some(true) ==> forall i :: 0 <= i < |r| ==> r[i].desc == list[i].url
  {
    seq(|list|, i requires 0 <= i < |list| =>
      var b := list[i];
      var desc := if command.shiftKey == Some(true) then wrapDesc(b, i) else b.url;
      Item(command.key, b.id, icon, b.url, b.title, desc, false))
  }

  /** Every bookmark can be read back from its item: the mapping loses nothing and keeps the order. */
  lemma ItemsRoundTrip(list: seq<Bookmark>, command: Command, icon: Option<string>, wrapDesc: (Bookmark, nat) -> Option<string>)
    ensures var r := ToItems(list, command, icon, wrapDesc);
      seq(|r|, i requires 0 <= i < |r| => Source(r[i])) == list
  {
  }

  /**
   * `onInput(query, command)`: one item per bookmark the query selects, in order, each
   * built from its own bookmark and keyed by the command.
   */
  function OnInput(query: string, command: Command, response: Option<seq<Bookmark>>, icon: Option<string>,
                   wrapDesc: (Bookmark, nat) -> Option<string>): (r: seq<Item>)
    ensures query != "" ==> forall i :: 0 <= i < |r| ==> r[i].url.Some?
    ensures |r| == |SearchBookmark(query, response)|
    ensures seq(|r|, i requires 0 <= i < |r| => Source(r[i])) == SearchBookmark(query, response)
    ensures forall i :: 0 <= i < |r| ==> r[i].key == command.key && !r[i].isWarn
  {
    var list := SearchBookmark(query, response);
    var r := ToItems(list, command, icon, wrapDesc);
    assert forall i :: 0 <= i < |list| ==> list[i] in list;
    ItemsRoundTrip(list, command, icon, wrapDesc);
    r
  }

  /**
   * What enter on a bookmark item does. `RemoveThenRefresh` removes the bookmark and,
   * once the removal completes, refreshes the box's list.
   */
  datatype Action = OpenInBackground(urls: seq<Option<string>>) | OpenTab(url: Option<string>) | RemoveThenRefresh(id: string) | NoAction

  /**
   * The end index of `list.slice(0, end)`: the whole list for an undefined end, counted
   * from the back for a negative one, clamped to the list otherwise.
   */
  function SliceEnd(len: nat, end: Option<int>): (e: nat)
    ensures e <= len
    ensures end.None? ==> e == len
    ensures end.Some? && end.value >= 0 ==> e == if end.value < len then end.value else len
    ensures end.Some? && end.value < 0 ==> e == if len + end.value > 0 then len + end.value else 0
  {
    match end
    case None => len
    case Some(k) =>
      if k < 0 then (if len + k > 0 then len + k else 0)
      else if k < len then k else len
  }

  /**
   * `onEnter(item, command, query, shiftKey, list)`: for `bm` with shift, every listed
   * bookmark up to the configured maximum opens in a background tab; for `bm` without
   * shift, the item's url opens; for `bmd`, the item's bookmark is removed and then the list
   * refreshed; for any other
   * command nothing happens.
   */
  function OnEnter(item: Item, command: Command, shiftKey: bool, list: seq<Item>, maxOperandsNum: Option<int>): (a: Action)
    ensures command.orkey == Some("bm") && shiftKey ==> a.OpenInBackground?
    ensures command.orkey == Some("bm") && !shiftKey ==> a == OpenTab(item.url)
    ensures command.orkey == Some("bmd") ==> a == RemoveThenRefresh(item.id)
    ensures command.orkey != Some("bm") && command.orkey != Some("bmd") ==> a == NoAction
    ensures a.OpenInBackground? ==>
      && |a.urls| == SliceEnd(|list|, maxOperandsNum)
      && forall i :: 0 <= i < |a.urls| ==> a.urls[i] == list[i].url
  {
    if command.orkey == Some("bm") then
      if shiftKey then
        var e := SliceEnd(|list|, maxOperandsNum);
        OpenInBackground(seq(e, i requires 0 <= i < e => list[i].url))
      else OpenTab(item.url)
    else if command.orkey == Some("bmd") then RemoveThenRefresh(item.id)
    else NoAction
  }

  /** With shift and a non-negative maximum, the tabs opened are the first `min(max, |list|)` bookmarks. */
  lemma OpensAtMost(item: Item, command: Command, list: seq<Item>, max: nat)
    requires command.orkey == Some("bm")
    ensures var a := OnEnter(item, command, true, list, Some(max));
      && |a.urls| <= max
      && |a.urls| <= |list|
      && (|a.urls| == max || |a.urls| == |list|)
  {
  }
}

=== FILE: classify.dfy ===
/**
 * `classifyPlugins`: turns the registered plugins and the stored configuration into
 * the four command pools. A plugin whose `commands` is an array contributes its
 * effective command list, each command routed by its `type`; any other plugin is a
 * contextual search provider.
 */
module Classify {
  import opened Wrappers
  import opened Model
  import opened Registry

  /** The stored per-plugin record `config.plugins[name]`. */
  datatype Stored = Stored(version: Option<int>, commands: Option<seq<Command>>)

  /** `config.plugins`; `None` when there is no configuration yet. */
  type Config = Option<map<string, Stored>>

  datatype Pools = Pools(
    commands: Table,
    regExpCommands: seq<Cmd>,
    otherCommands: seq<Cmd>,
    searchContexts: seq<Plugin>)

  function EmptyPools(): Pools {
    Pools([], [], [], [])
  }

  /** `plugin.version > (stored.version || 1)`; an absent code version compares false. */
  predicate Newer(code: Option<int>, stored: Option<int>) {
    var floor := if stored.None? || stored.value == 0 then 1 else stored.value;
    code.Some? && code.value > floor
  }

  /** One property of a deep `$.extend`: the defined source value wins, else the target's stays. */
  function MergeField<T>(base: Option<T>, over: Option<T>): Option<T> {
    if over.Some? then over else base
  }

  function MergeCommand(base: Command, over: Command): Command {
    Command(
      MergeField(base.key, over.key),
      MergeField(base.kind, over.kind),
      MergeField(base.shiftKey, over.shiftKey),
      MergeField(base.regExp, over.regExp),
      MergeField(base.title, over.title),
      MergeField(base.subtitle, over.subtitle),
      MergeField(base.icon, over.icon),
      MergeField(base.orkey, over.orkey))
  }

  /** Every property defined in `c` is defined in `r` with the same value. */
  predicate Keeps(r: Command, c: Command) {
    && (c.key.Some? ==> r.key == c.key)
    && (c.kind.Some? ==> r.kind == c.kind)
    && (c.shiftKey.Some? ==> r.shiftKey == c.shiftKey)
    && (c.regExp.Some? ==> r.regExp == c.regExp)
    && (c.title.Some? ==> r.title == c.title)
    && (c.subtitle.Some? ==> r.subtitle == c.subtitle)
    && (c.icon.Some? ==> r.icon == c.icon)
    && (c.orkey.Some? ==> r.orkey == c.orkey)
  }

  /** Every property defined in `r` is defined in `a` or in `b`. */
  predicate Within(r: Command, a: Command, b: Command) {
    && (r.key.Some? ==> a.key.Some? || b.key.Some?)
    && (r.kind.Some? ==> a.kind.Some? || b.kind.Some?)
    && (r.shiftKey.Some? ==> a.shiftKey.Some? || b.shiftKey.Some?)
    && (r.regExp.Some? ==> a.regExp.Some? || b.regExp.Some?)
    && (r.title.Some? ==> a.title.Some? || b.title.Some?)
    && (r.subtitle.Some? ==> a.subtitle.Some? || b.subtitle.Some?)
    && (r.icon.Some? ==> a.icon.Some? || b.icon.Some?)
    && (r.orkey.Some? ==> a.orkey.Some? || b.orkey.Some?)
  }

  /** Every property defined in `r` is defined in `a`, or else `r` agrees with `b` on it. */
  predicate DefinedOrFrom(r: Command, a: Command, b: Command) {
    && (a.key.None? ==> r.key == b.key)
    && (a.kind.None? ==> r.kind == b.kind)
    && (a.shiftKey.None? ==> r.shiftKey == b.shiftKey)
    && (a.regExp.None? ==> r.regExp == b.regExp)
    && (a.title.None? ==> r.title == b.title)
    && (a.subtitle.None? ==> r.subtitle == b.subtitle)
    && (a.icon.None? ==> r.icon == b.icon)
    && (a.orkey.None? ==> r.orkey == b.orkey)
  }

  /**
   * `$.extend(true, base, over)` on two command arrays: index by index, the stored
   * command's defined properties overwrite the built-in ones and the built-in
   * properties the stored command lacks survive; indices only one side has are kept.
   */
  function DeepMerge(base: seq<Command>, over: seq<Command>): (r: seq<Command>)
    ensures |r| == if |base| >= |over| then |base| else |over|
    ensures forall i :: 0 <= i < |over| ==> Keeps(r[i], over[i])
    ensures forall i :: 0 <= i < |base| && i < |over| ==>
      DefinedOrFrom(r[i], over[i], base[i]) && Within(r[i], over[i], base[i])
    ensures forall i :: |over| <= i < |base| ==> r[i] == base[i]
    ensures forall i :: |base| <= i < |over| ==> r[i] == over[i]
  {
    var n := if |base| >= |over| then |base| else |over|;
    seq(n, i requires 0 <= i < n =>
      if i < |base| && i < |over| then MergeCommand(base[i], over[i])
      else if i < |base| then base[i]
      else over[i])
  }

  /** Merging the same stored commands a second time changes nothing. */
  lemma DeepMergeIdempotent(base: seq<Command>, over: seq<Command>)
    ensures DeepMerge(DeepMerge(base, over), over) == DeepMerge(base, over)
  {
  }

  /** The result of resolving one plugin's commands: the list to register and the plugin as mutated. */
  datatype Effective = Effective(cmds: Option<seq<Command>>, plugin: Plugin)

  /**
   * The `try … catch` choosing `pcmds`. A missing configuration or plugin record makes
   * the lookup throw and the built-in list is used; a record from an older version is
   * deep-merged onto `plugin.commands` (mutating the plugin); otherwise the stored list
   * is taken verbatim, and an absent stored list registers nothing.
   */
  function EffectiveCommands(p: Plugin, data: Config): (e: Effective)
    requires p.commands.Some?
    ensures e.plugin.name == p.name && e.plugin.commands.Some?
    ensures (data.None? || p.name !in data.value) ==> e == Effective(p.commands, p)
    ensures data.Some? && p.name in data.value && !Newer(p.version, data.value[p.name].version) ==>
      e == Effective(data.value[p.name].commands, p)
    ensures data.Some? && p.name in data.value && Newer(p.version, data.value[p.name].version) ==>
      && e.cmds == Some(DeepMerge(p.commands.value, data.value[p.name].commands.GetOr([])))
      && e.plugin == p.(commands := e.cmds)
      && e.cmds == e.plugin.commands
      && |e.cmds.value| >= |p.commands.value|
      && (forall i :: |data.value[p.name].commands.GetOr([])| <= i < |p.commands.value| ==>
            e.cmds.value[i] == p.commands.value[i])
  {
    if data.None? || p.name !in data.value then Effective(p.commands, p)
    else
      var stored := data.value[p.name];
      if Newer(p.version, stored.version) then
        var merged := DeepMerge(p.commands.value, stored.commands.GetOr([]));
        Effective(Some(merged), p.(commands := Some(merged)))
      else Effective(stored.commands, p)
  }

  /** `commands[command.key]` uses the string "undefined" for a missing key. */
  function PropertyKey(k: Option<string>): string {
    k.GetOr("undefined")
  }

  predicate IsRegExpCmd(c: Cmd) {
    c.command.kind == Some("regexp")
  }

  predicate IsOtherCmd(c: Cmd) {
    c.command.kind == Some("other")
  }

  /** "keyword", and the `default` branch: any other or missing type. */
  predicate IsKeywordCmd(c: Cmd) {
    !IsRegExpCmd(c) && !IsOtherCmd(c)
  }

  /** A keyword command registered under the property name `k`. */
  predicate KeywordFor(c: Cmd, k: string) {
    IsKeywordCmd(c) && PropertyKey(c.command.key) == k
  }

  /** The `switch (command.type)` of one command. */
  function Route(pools: Pools, c: Cmd): Pools {
    if IsRegExpCmd(c) then pools.(regExpCommands := pools.regExpCommands + [c])
    else if IsOtherCmd(c) then pools.(otherCommands := pools.otherCommands + [c])
    else pools.(commands := Put(pools.commands, PropertyKey(c.command.key), c))
  }

  /** `pcmds.forEach(...)`, processed in list order. */
  function AddCommands(pools: Pools, cs: seq<Cmd>): Pools
    decreases |cs|
  {
    if |cs| == 0 then pools
    else Route(AddCommands(pools, cs[..|cs| - 1]), cs[|cs| - 1])
  }

  /** `{...command, name: pname, plugin}` for each command of a list. */
  function Wrap(cs: seq<Command>, name: string, plugin: Plugin): (r: seq<Cmd>)
    ensures |r| == |cs|
    ensures forall i :: 0 <= i < |cs| ==> r[i] == Cmd(cs[i], name, plugin)
  {
    seq(|cs|, i requires 0 <= i < |cs| => Cmd(cs[i], name, plugin))
  }

  /** The commands a plugin registers, in order (none for a search provider). */
  function PluginCmds(p: Plugin, data: Config): seq<Cmd> {
    if p.commands.None? then []
    else
      var e := EffectiveCommands(p, data);
      if e.cmds.Some? then Wrap(e.cmds.value, p.name, e.plugin) else []
  }

  function AddPlugin(pools: Pools, p: Plugin, data: Config): Pools {
    if p.commands.Some? then AddCommands(pools, PluginCmds(p, data))
    else pools.(searchContexts := pools.searchContexts + [p])
  }

  /** `plugins.forEach(...)`, processed in registration order. */
  function AddPlugins(pools: Pools, ps: seq<Plugin>, data: Config): Pools
    decreases |ps|
  {
    if |ps| == 0 then pools
    else AddPlugin(AddPlugins(pools, ps[..|ps| - 1], data), ps[|ps| - 1], data)
  }

  /**
   * `classifyPlugins(pluginsData, inContent)`; `hostProvider` is
   * `websitesMap[window.parentHost]`, appended last when running in a content page.
   */
  function ClassifyPlugins(ps: seq<Plugin>, data: Config, inContent: bool, hostProvider: Option<Plugin>): Pools {
    var pools := AddPlugins(EmptyPools(), ps, data);
    if inContent && hostProvider.Some? then
      pools.(searchContexts := pools.searchContexts + [hostProvider.value])
    else pools
  }

  // ---------------------------------------------------------------------------
  // Reference definitions: the pools described without the fold.

  /** Every command registered, in registration order. */
  function Registered(ps: seq<Plugin>, data: Config): seq<Cmd>
    decreases |ps|
  {
    if |ps| == 0 then []
    else Registered(ps[..|ps| - 1], data) + PluginCmds(ps[|ps| - 1], data)
  }

  function RegExpOf(cs: seq<Cmd>): (r: seq<Cmd>)
    ensures forall c :: c in r <==> c in cs && IsRegExpCmd(c)
  {
    if |cs| == 0 then []
    else RegExpOf(cs[..|cs| - 1]) + (if IsRegExpCmd(cs[|cs| - 1]) then [cs[|cs| - 1]] else [])
  }

  function OtherOf(cs: seq<Cmd>): (r: seq<Cmd>)
    ensures forall c :: c in r <==> c in cs && IsOtherCmd(c)
  {
    if |cs| == 0 then []
    else OtherOf(cs[..|cs| - 1]) + (if IsOtherCmd(cs[|cs| - 1]) then [cs[|cs| - 1]] else [])
  }

  /** The plugins whose `commands` is not an array, in registration order. */
  function Providers(ps: seq<Plugin>): (r: seq<Plugin>)
    ensures forall p :: p in r <==> p in ps && p.commands.None?
  {
    if |ps| == 0 then []
    else Providers(ps[..|ps| - 1]) + (if ps[|ps| - 1].commands.None? then [ps[|ps| - 1]] else [])
  }

  /** The last keyword command registered under `k`, if any. */
  function LastFor(cs: seq<Cmd>, k: string): Option<Cmd>
    decreases |cs|
  {
    if |cs| == 0 then None
    else if KeywordFor(cs[|cs| - 1], k) then Some(cs[|cs| - 1])
    else LastFor(cs[..|cs| - 1], k)
  }

  /** `LastFor` finds nothing iff no command is a keyword command for `k`, and otherwise the last one that is. */
  lemma {:induction false} LastForIsLast(cs: seq<Cmd>, k: string)
    ensures LastFor(cs, k).None? <==> forall i :: 0 <= i < |cs| ==> !KeywordFor(cs[i], k)
    ensures LastFor(cs, k).Some? ==>
      exists i :: 0 <= i < |cs| && cs[i] == LastFor(cs, k).value && KeywordFor(cs[i], k) &&
                  forall j :: i < j < |cs| ==> !KeywordFor(cs[j], k)
    decreases |cs|
  {
    if |cs| > 0 {
      var init := cs[..|cs| - 1];
      var last := |cs| - 1;
      if !KeywordFor(cs[last], k) {
        LastForIsLast(init, k);
        assert forall i :: 0 <= i < |init| ==> init[i] == cs[i];
        if LastFor(init, k).Some? {
          var i :| 0 <= i < |init| && init[i] == LastFor(init, k).value && KeywordFor(init[i], k) &&
                   forall j :: i < j < |init| ==> !KeywordFor(init[j], k);
          assert cs[i] == LastFor(cs, k).value && KeywordFor(cs[i], k);
        }
      } else {
        assert cs[last] == LastFor(cs, k).value;
      }
    }
  }

  function OrElse(a: Option<Cmd>, b: Option<Cmd>): Option<Cmd> {
    if a.Some? then a else b
  }

  lemma {:induction false} AddCommandsLists(pools: Pools, cs: seq<Cmd>)
    ensures var r := AddCommands(pools, cs);
      && r.regExpCommands == pools.regExpCommands + RegExpOf(cs)
      && r.otherCommands == pools.otherCommands + OtherOf(cs)
      && r.searchContexts == pools.searchContexts
    decreases |cs|
  {
    if |cs| > 0 {
      var init := cs[..|cs| - 1];
      var c := cs[|cs| - 1];
      var mid := AddCommands(pools, init);
      AddCommandsLists(pools, init);
      assert AddCommands(pools, cs) == Route(mid, c);
      assert RegExpOf(cs) == RegExpOf(init) + (if IsRegExpCmd(c) then [c] else []);
      assert OtherOf(cs) == OtherOf(init) + (if IsOtherCmd(c) then [c] else []);
    }
  }

  lemma {:induction false} AddCommandsLookup(pools: Pools, cs: seq<Cmd>, k: string)
    ensures Lookup(AddCommands(pools, cs).commands, k) == OrElse(LastFor(cs, k), Lookup(pools.commands, k))
    decreases |cs|
  {
    if |cs| > 0 {
      var init := cs[..|cs| - 1];
      var c := cs[|cs| - 1];
      var mid := AddCommands(pools, init);
      AddCommandsLookup(pools, init, k);
      assert AddCommands(pools, cs) == Route(mid, c);
      assert LastFor(cs, k) == if KeywordFor(c, k) then Some(c) else LastFor(init, k);
      if IsKeywordCmd(c) {
        PutLookup(mid.commands, PropertyKey(c.command.key), c, k);
      }
    }
  }

  lemma {:induction false} AddCommandsUnique(pools: Pools, cs: seq<Cmd>)
    requires UniqueKeys(pools.commands)
    ensures UniqueKeys(AddCommands(pools, cs).commands)
    decreases |cs|
  {
    if |cs| > 0 {
      var c := cs[|cs| - 1];
      AddCommandsUnique(pools, cs[..|cs| - 1]);
      if IsKeywordCmd(c) {
        PutKeepsKeysUnique(AddCommands(pools, cs[..|cs| - 1]).commands, PropertyKey(c.command.key), c);
      }
    }
  }

  lemma {:induction false} RegExpOfAppend(a: seq<Cmd>, b: seq<Cmd>)
    ensures RegExpOf(a + b) == RegExpOf(a) + RegExpOf(b)
    decreases |b|
  {
    if |b| > 0 {
      assert (a + b)[..|a + b| - 1] == a + b[..|b| - 1];
      RegExpOfAppend(a, b[..|b| - 1]);
    } else {
      assert a + b == a;
    }
  }

  lemma {:induction false} OtherOfAppend(a: seq<Cmd>, b: seq<Cmd>)
    ensures OtherOf(a + b) == OtherOf(a) + OtherOf(b)
    decreases |b|
  {
    if |b| > 0 {
      assert (a + b)[..|a + b| - 1] == a + b[..|b| - 1];
      OtherOfAppend(a, b[..|b| - 1]);
    } else {
      assert a + b == a;
    }
  }

  lemma {:induction false} LastForAppend(a: seq<Cmd>, b: seq<Cmd>, k: string)
    ensures LastFor(a + b, k) == OrElse(LastFor(b, k), LastFor(a, k))
    decreases |b|
  {
    if |b| > 0 {
      assert (a + b)[..|a + b| - 1] == a + b[..|b| - 1];
      LastForAppend(a, b[..|b| - 1], k);
    } else {
      assert a + b == a;
    }
  }

  lemma {:induction false} AddPluginsPools(ps: seq<Plugin>, data: Config, k: string)
    ensures var r := AddPlugins(EmptyPools(), ps, data);
      var all := Registered(ps, data);
      && r.regExpCommands == RegExpOf(all)
      && r.otherCommands == OtherOf(all)
      && r.searchContexts == Providers(ps)
      && Lookup(r.commands, k) == LastFor(all, k)
      && UniqueKeys(r.commands)
    decreases |ps|
  {
    if |ps| > 0 {
      var init := ps[..|ps| - 1];
      var p := ps[|ps| - 1];
      AddPluginsPools(init, data, k);
      var mid := AddPlugins(EmptyPools(), init, data);
      var cs := PluginCmds(p, data);
      AddCommandsLists(mid, cs);
      AddCommandsLookup(mid, cs, k);
      AddCommandsUnique(mid, cs);
      RegExpOfAppend(Registered(init, data), cs);
      OtherOfAppend(Registered(init, data), cs);
      LastForAppend(Registered(init, data), cs, k);
    }
  }

  /**
   * Every registered command lands in exactly the pool its type names: regexp commands
   * and other commands in registration order, keyword commands (and commands of any
   * other or missing type) under their key, the last registration winning; plugins
   * without a command array become search providers in registration order, followed by
   * the host provider in a content page. Keys are never duplicated.
   */
  lemma ClassifyPools(ps: seq<Plugin>, data: Config, inContent: bool, hostProvider: Option<Plugin>, k: string)
    ensures var r := ClassifyPlugins(ps, data, inContent, hostProvider);
      var all := Registered(ps, data);
      && r.regExpCommands == RegExpOf(all)
      && r.otherCommands == OtherOf(all)
      && r.searchContexts == Providers(ps) + (if inContent && hostProvider.Some? then [hostProvider.value] else [])
      && UniqueKeys(r.commands)
      && (Lookup(r.commands, k).None? <==> forall i :: 0 <= i < |all| ==> !KeywordFor(all[i], k))
      && (Lookup(r.commands, k).Some? ==>
            exists i :: 0 <= i < |all| && all[i] == Lookup(r.commands, k).value && KeywordFor(all[i], k)
              && forall j :: i < j < |all| ==> !KeywordFor(all[j], k))
  {
    AddPluginsPools(ps, data, k);
    LastForIsLast(Registered(ps, data), k);
  }
}

=== FILE: matcher.dfy ===
/**
 * The composite keyword matcher: the case-insensitive regular expression
 * `^((?:k1|k2|…))\s(?:\-(\w+))?\s?(.*)$` built from the keyword keys, written out as
 * a string function with the regular expression's backtracking outcome.
 * Keys are taken literally (as plain words).
 */
module Matcher {
  import opened Wrappers
  import opened Text

  /** The three capture groups: `cmd`, the optional `-flag`, and the rest as `query`. */
  datatype Parsed = Parsed(cmd: string, flag: Option<string>, query: string)

  /** What follows the key and its whitespace: `(?:\-(\w+))?\s?(.*)$`. */
  datatype Rest = Rest(flag: Option<string>, query: string)

  /** Length of the longest run of `\w` characters at the start of `s` (greedy `\w+`). */
  function WordRun(s: string): (n: nat)
    ensures n <= |s|
    ensures forall i :: 0 <= i < n ==> IsWordChar(s[i])
    ensures n < |s| ==> !IsWordChar(s[n])
  {
    if |s| == 0 || !IsWordChar(s[0]) then 0 else 1 + WordRun(s[1..])
  }

  /** Greedy `\s?`. */
  function SkipSpace(s: string): string {
    if |s| > 0 && IsSpace(s[0]) then s[1..] else s
  }

  /** The text the flag group consumed. */
  function FlagText(flag: Option<string>): string {
    if flag.Some? then "-" + flag.value else ""
  }

  /**
   * `(?:\-(\w+))?\s?(.*)$`. The flag group is taken whenever a `-` and at least one word
   * character follow; `.` matches anything but a line terminator, so the match fails
   * exactly when a line terminator remains after the optional whitespace.
   */
  function Tail(rest: string): (r: Option<Rest>)
    ensures r.Some? ==> NoLineBreak(r.value.query)
    ensures NoLineBreak(rest) ==> r.Some?
  {
    if |rest| > 0 && rest[0] == '-' && WordRun(rest[1..]) > 0 then
      var m := WordRun(rest[1..]);
      var q := SkipSpace(rest[1 + m..]);
      if NoLineBreak(q) then Some(Rest(Some(rest[1..1 + m]), q)) else None
    else
      var q := SkipSpace(rest);
      if NoLineBreak(q) then Some(Rest(None, q)) else None
  }

  /**
   * The parts `Tail` returns tile the text: the flag text, at most one whitespace
   * character (taken whenever present), then the query to the end.
   */
  lemma TailTiles(rest: string)
    requires Tail(rest).Some?
    ensures var r := Tail(rest).value;
      var n := |FlagText(r.flag)|;
      var gap := |rest| - |r.query|;
      && n <= gap <= n + 1
      && rest[..n] == FlagText(r.flag)
      && (gap == n + 1 ==> IsSpace(rest[n]))
      && (gap == n && n < |rest| ==> !IsSpace(rest[n]))
      && rest[gap..] == r.query
  {
    if |rest| > 0 && rest[0] == '-' && WordRun(rest[1..]) > 0 {
      var m := WordRun(rest[1..]);
      assert FlagText(Some(rest[1..1 + m])) == rest[..1 + m];
    }
  }

  /** The flag `Tail` captures is a maximal non-empty run of word characters, taken whenever one follows a leading `-`. */
  lemma TailFlag(rest: string)
    requires Tail(rest).Some?
    ensures var r := Tail(rest).value;
      r.flag.Some? ==>
        var f := r.flag.value;
        && |f| > 0
        && (forall i :: 0 <= i < |f| ==> IsWordChar(f[i]))
        && (1 + |f| < |rest| ==> !IsWordChar(rest[1 + |f|]))
    ensures var r := Tail(rest).value;
      r.flag.None? ==> !(|rest| > 1 && rest[0] == '-' && IsWordChar(rest[1]))
  {
    if |rest| > 0 && rest[0] == '-' {
      var m := WordRun(rest[1..]);
      if m > 0 {
        assert Tail(rest).value.flag == Some(rest[1..1 + m]);
        assert forall i :: 0 <= i < m ==> rest[1..1 + m][i] == rest[1..][i];
        assert 1 + m < |rest| ==> rest[1 + m] == rest[1..][m];
      } else if |rest| > 1 {
        assert rest[1..][0] == rest[1];
      }
    }
  }

  /** `Object.keys(commands).join('|')` as alternatives: no keys leaves the empty alternative. */
  function Alternatives(keys: seq<string>): (alts: seq<string>)
    ensures |alts| > 0
    ensures |keys| > 0 ==> alts == keys
  {
    if |keys| == 0 then [""] else keys
  }

  /** `str` starts with `k`, ignoring case, immediately followed by one `\s` character. */
  predicate KeyAt(k: string, str: string) {
    |k| < |str| && FoldEq(str[..|k|], k) && IsSpace(str[|k|])
  }

  /** The whole pattern matches when the alternative `k` is chosen. */
  predicate MatchesAt(k: string, str: string) {
    KeyAt(k, str) && Tail(str[|k| + 1..]).Some?
  }

  /** `p` is the match obtained through alternative `k`; `cmd` keeps the input's casing. */
  predicate ChosenBy(k: string, str: string, p: Parsed)
    requires |k| < |str|
  {
    p.cmd == str[..|k|] && Tail(str[|k| + 1..]) == Some(Rest(p.flag, p.query))
  }

  /** The first alternative, from index `from` on, under which the whole pattern matches. */
  function FirstFrom(alts: seq<string>, str: string, from: nat): (r: Option<nat>)
    requires from <= |alts|
    ensures r.None? <==> forall i {:trigger MatchesAt(alts[i], str)} :: from <= i < |alts| ==> !MatchesAt(alts[i], str)
    ensures r.Some? ==> from <= r.value < |alts| && MatchesAt(alts[r.value], str)
    ensures r.Some? ==> forall j {:trigger MatchesAt(alts[j], str)} :: from <= j < r.value ==> !MatchesAt(alts[j], str)
    decreases |alts| - from
  {
    if from == |alts| then None
    else if MatchesAt(alts[from], str) then Some(from)
    else
      var r := FirstFrom(alts, str, from + 1);
      assert !MatchesAt(alts[from], str);
      r
  }

  /** `str.match(reg)`, returning the capture groups. */
  function ParseCommand(keys: seq<string>, str: string): (r: Option<Parsed>)
    ensures r.Some? ==> |r.value.cmd| < |str|
  {
    var alts := Alternatives(keys);
    match FirstFrom(alts, str, 0)
    case None => None
    case Some(i) =>
      var t := Tail(str[|alts[i]| + 1..]).value;
      Some(Parsed(str[..|alts[i]|], t.flag, t.query))
  }

  /**
   * The alternatives are tried in order and the first under which the rest of the
   * pattern matches wins; when none does, the input does not match.
   */
  lemma ParseCommandFirstMatch(keys: seq<string>, str: string)
    ensures var r := ParseCommand(keys, str);
      var alts := Alternatives(keys);
      r.None? <==> forall i :: 0 <= i < |alts| ==> !MatchesAt(alts[i], str)
    ensures var r := ParseCommand(keys, str);
      var alts := Alternatives(keys);
      r.Some? ==> exists i :: 0 <= i < |alts| && MatchesAt(alts[i], str) && ChosenBy(alts[i], str, r.value) &&
                             forall j :: 0 <= j < i ==> !MatchesAt(alts[j], str)
  {
    var alts := Alternatives(keys);
    var f := FirstFrom(alts, str, 0);
    if f.Some? {
      assert ChosenBy(alts[f.value], str, ParseCommand(keys, str).value);
    }
  }

  /**
   * From position `m` on, `str` holds the flag text, at most one whitespace character
   * (taken whenever present), then `query` up to the end.
   */
  predicate TilesFrom(str: string, m: nat, flag: Option<string>, query: string) {
    var n := m + |FlagText(flag)|;
    && m <= n <= |str|
    && str[m..n] == FlagText(flag)
    && (|str| - |query| == n || (|str| - |query| == n + 1 && IsSpace(str[n])))
    && (|str| - |query| == n && n < |str| ==> !IsSpace(str[n]))
    && str[|str| - |query|..] == query
  }

  /** The rest of the pattern, matched on the suffix from `m`, tiles `str` from `m`. */
  lemma TailInContext(str: string, m: nat, r: Rest)
    requires m <= |str| && Tail(str[m..]) == Some(r)
    ensures TilesFrom(str, m, r.flag, r.query)
  {
    TailTiles(str[m..]);
    TilesShift(str, m, r.flag, r.query);
  }

  /** A tiling of the suffix from `m` is a tiling of `str` from `m`. */
  lemma TilesShift(str: string, m: nat, flag: Option<string>, query: string)
    requires m <= |str|
    requires var rest := str[m..];
      var n := |FlagText(flag)|;
      var gap := |rest| - |query|;
      && n <= gap <= n + 1
      && rest[..n] == FlagText(flag)
      && (gap == n + 1 ==> IsSpace(rest[n]))
      && (gap == n && n < |rest| ==> !IsSpace(rest[n]))
      && rest[gap..] == query
    ensures TilesFrom(str, m, flag, query)
  {
    var rest := str[m..];
    var n := |FlagText(flag)|;
    var gap := |rest| - |query|;
    SliceShift(str, m, 0, n);
    SliceShift(str, m, gap, |rest|);
    if n < |rest| {
      assert str[m + n] == rest[n];
    }
  }

  /** Positions in a suffix `str[m..]` translate to positions in `str`. */
  lemma SliceShift(s: string, m: nat, a: nat, b: nat)
    requires m <= |s| && a <= b <= |s| - m
    ensures s[m..][a..b] == s[m + a..m + b]
    ensures s[m..][..b] == s[m..m + b]
    ensures b == |s| - m ==> s[m..][a..] == s[m + a..]
  {
  }

  /** A successful parse starts with the `cmd` as typed, equal to some key up to case, then one whitespace character. */
  lemma ParseCommandHead(keys: seq<string>, str: string)
    requires ParseCommand(keys, str).Some?
    ensures var p := ParseCommand(keys, str).value;
      && |p.cmd| < |str|
      && str[..|p.cmd|] == p.cmd
      && (exists i :: 0 <= i < |Alternatives(keys)| && FoldEq(p.cmd, Alternatives(keys)[i]))
      && IsSpace(str[|p.cmd|])
  {
    var alts := Alternatives(keys);
    var i := FirstFrom(alts, str, 0).value;
    var p := ParseCommand(keys, str).value;
    assert KeyAt(alts[i], str);
    assert p.cmd == str[..|alts[i]|];
    assert FoldEq(p.cmd, alts[i]);
  }

  /**
   * After the `cmd` and its whitespace a successful parse continues with the `-flag` if
   * any, at most one more whitespace character, and the query, which runs to the end of
   * the input and holds no line terminator.
   */
  lemma ParseCommandTail(keys: seq<string>, str: string)
    requires ParseCommand(keys, str).Some?
    ensures var p := ParseCommand(keys, str).value;
      TilesFrom(str, |p.cmd| + 1, p.flag, p.query) && NoLineBreak(p.query)
  {
    var alts := Alternatives(keys);
    var i := FirstFrom(alts, str, 0).value;
    var k := alts[i];
    assert FirstFrom(alts, str, 0) == Some(i);
    assert MatchesAt(k, str);
    var t := Tail(str[|k| + 1..]).value;
    assert ParseCommand(keys, str).value == Parsed(str[..|k|], t.flag, t.query);
    TailInContext(str, |k| + 1, t);
  }

  /** A string without any whitespace character never matches. */
  lemma {:induction false} NoSpaceNoMatch(keys: seq<string>, str: string)
    requires forall i :: 0 <= i < |str| ==> !IsSpace(str[i])
    ensures ParseCommand(keys, str).None?
  {
    var alts := Alternatives(keys);
    ParseCommandFirstMatch(keys, str);
    forall i | 0 <= i < |alts|
      ensures !MatchesAt(alts[i], str)
    {
      if |alts[i]| < |str| {
        assert !IsSpace(str[|alts[i]|]);
      }
    }
  }

  /**
   * On single-line input the matcher succeeds exactly when the input starts with a key,
   * ignoring case, immediately followed by one whitespace character.
   */
  lemma {:induction false} SingleLineMatch(keys: seq<string>, str: string)
    requires NoLineBreak(str)
    ensures ParseCommand(keys, str).Some? <==> exists i :: 0 <= i < |Alternatives(keys)| && KeyAt(Alternatives(keys)[i], str)
  {
    var alts := Alternatives(keys);
    ParseCommandFirstMatch(keys, str);
    forall i | 0 <= i < |alts| && KeyAt(alts[i], str)
      ensures MatchesAt(alts[i], str)
    {
      var rest := str[|alts[i]| + 1..];
      assert forall j :: 0 <= j < |rest| ==> rest[j] == str[|alts[i]| + 1 + j];
    }
  }

  /** `bm foo` with key `bm`: the command, no flag, the query `foo`. */
  lemma ParseExamplePlain()
    ensures ParseCommand(["bm"], "bm foo") == Some(Parsed("bm", None, "foo"))
  {
    assert KeyAt("bm", "bm foo") by {
      assert "bm foo"[..2] == "bm";
    }
    assert "bm foo"[3..] == "foo";
    assert Tail("foo") == Some(Rest(None, "foo"));
    assert MatchesAt("bm", "bm foo");
    assert FirstFrom(["bm"], "bm foo", 0) == Some(0);
    assert "bm foo"[..2] == "bm";
  }

  /** `bmx foo` with key `bm`: the key must be followed by whitespace, so nothing matches. */
  lemma ParseExampleNoKey()
    ensures ParseCommand(["bm"], "bmx foo").None?
  {
    assert !KeyAt("bm", "bmx foo") by {
      assert "bmx foo"[2] == 'x';
    }
  }

  lemma TailFlagExample()
    ensures Tail("-a x") == Some(Rest(Some("a"), "x"))
  {
    var rest := "-a x";
    assert rest[1..] == "a x" && "a x"[1..] == " x";
    assert WordRun(" x") == 0;
    assert WordRun("a x") == 1;
    assert rest[2..] == " x" && rest[1..2] == "a";
    assert SkipSpace(" x") == "x";
  }

  lemma KeyAtExample()
    ensures KeyAt("bmd", "BMD -a x") && !KeyAt("bm", "BMD -a x")
  {
    var str := "BMD -a x";
    assert str[2] == 'D';
    assert str[..3] == "BMD";
    assert Fold('b') == 'B' && Fold('m') == 'M' && Fold('d') == 'D';
    assert FoldEq("BMD", "bmd");
    assert IsSpace(str[3]);
  }

  /** `BMD -a x` with keys `bm` and `bmd`: the second key matches ignoring case, the typed casing is kept. */
  lemma ParseExampleFlag()
    ensures ParseCommand(["bm", "bmd"], "BMD -a x") == Some(Parsed("BMD", Some("a"), "x"))
  {
    var str := "BMD -a x";
    KeyAtExample();
    TailFlagExample();
    assert str[4..] == "-a x";
    assert MatchesAt("bmd", str);
    assert FirstFrom(["bm", "bmd"], str, 0) == Some(1);
    assert str[..3] == "BMD";
  }
}

=== FILE: model.dfy ===
/**
 * The values the command palette passes around: command descriptors, plugins,
 * classified commands, display items, handler replies, the session record of the
 * input box and the observable events a keystroke produces.
 *
 * JavaScript objects become immutable datatypes; a property that may be `undefined`
 * is an `Option`.
 */
module Model {
  import opened Wrappers

  /** A regular expression, kept abstract: it is only ever handed to `Env.test`. */
  type Pattern = string

  /**
   * A command as a plugin declares it, or as the stored configuration keeps it.
   * `kind` is the `type` property ("keyword", "regexp", "other", anything else or absent);
   * `orkey` is the original key a command was generated with.
   */
  datatype Command = Command(
    key: Option<string>,
    kind: Option<string>,
    shiftKey: Option<bool>,
    regExp: Option<Pattern>,
    title: Option<string>,
    subtitle: Option<string>,
    icon: Option<string>,
    orkey: Option<string>)

  /**
   * A plugin. `commands == None` means its `commands` property is not an array, which
   * makes the plugin a contextual search provider; `host` is read when providers are
   * ordered inside a content page.
   */
  datatype Plugin = Plugin(
    name: string,
    version: Option<int>,
    commands: Option<seq<Command>>,
    host: Option<string>)

  /** A registered command: `{...command, name, plugin}` with the owning plugin as it is after classification. */
  datatype Cmd = Cmd(command: Command, name: string, plugin: Plugin)

  /** The item shape handed to the renderer. An absent `isWarn` is `false`. */
  datatype Item = Item(
    key: Option<string>,
    id: string,
    icon: Option<string>,
    url: Option<string>,
    title: string,
    desc: Option<string>,
    isWarn: bool)

  /** Errors raised by the pipeline itself (not by plugins). */
  datatype Fault =
    | NoFirstCommand          // `item.plugin.commands[0].regExp` on a plugin whose `commands` is empty
    | ProviderReturnedNothing // `searchRet.then` on a provider that returned `undefined` or `null`

  /**
   * A settled JavaScript value as far as the pipeline cares: `undefined` (or `null`),
   * another falsy value, a list of items, an error object, or any other truthy value
   * without a `length` (`true`, a number, a plain object), which the pipeline passes on untouched.
   */
  datatype Value = Undefined | Falsy | Items(items: seq<Item>) | Thrown(fault: Fault) | Other(id: nat)

  /** JavaScript truthiness. A list is truthy even when empty. */
  predicate Truthy(v: Value) {
    !v.Undefined? && !v.Falsy?
  }

  /**
   * What a handler returns: a plain value, or a promise (always truthy) that has
   * already settled to `value`.
   */
  datatype Reply = Sync(value: Value) | Async(value: Value)

  /** The fields of the input box object (`cmdbox`) the pipeline reads and writes. */
  datatype Session = Session(
    str: string,
    cmd: Option<string>,
    param: Option<string>,
    query: Option<string>,
    lastcmd: Option<string>,
    command: Option<Cmd>)

  /** Observable effects of one keystroke, in the order they happen. */
  datatype Event =
    | HandlerCalled(cmd: Cmd, arg: string)            // `plugin.onInput(arg, cmd)` with the session as `this`
    | ProviderQueried(provider: Plugin, query: string) // `provider.onInput(query)`
    | Tracked(name: string)                          // `_trackEvent('command', 'input', name)`
    | LastCmdSaved(text: string)                      // `storage.h5.set(LAST_CMD, text)`
    | Emptied                                         // the box's `empty` lifecycle event

  /**
   * The collaborators the pipeline calls but whose code is not part of this model:
   * a command plugin's `onInput`, a search provider's `onInput`, `String.prototype.match`
   * against a regular expression, and whether the page runs inside a content page.
   */
  datatype Env = Env(
    onInput: (Session, Cmd, string) -> Reply,
    provide: (Plugin, string) -> Reply,
    test: (Pattern, string) -> bool,
    inContent: bool)
}

=== FILE: pipeline.dfy ===
/**
 * The keystroke handler `onInput`: four stages run strictly in order, each either
 * resolving the keystroke (the source signals this with a rejected promise) or passing
 * it on; a final `catch` turns the rejection reason into the answer.
 */
module Pipeline {
  import opened Wrappers
  import opened Model
  import opened Registry
  import opened Classify
  import opened Matcher
  import opened Search

  /**
   * How a stage ends: it resolves the keystroke with a rejection reason, passes it on,
   * (search stage only) ends with `resolve(true)`, which makes the command stage skip
   * parsing, or (regexp stage only) throws synchronously, before any promise exists.
   */
  datatype StageResult = Resolved(reason: Reply) | PassThrough | Skip | Raised(fault: Fault)

  datatype Step = Step(result: StageResult, session: Session, events: seq<Event>)

  /**
   * What one keystroke produces: the value the returned promise settles to, or an error
   * thrown out of `onInput` itself; with the session and the events either way.
   */
  datatype Outcome =
    | Settles(answer: Value, session: Session, events: seq<Event>)
    | Raises(fault: Fault, session: Session, events: seq<Event>)

  datatype Call = Call(reply: Reply, session: Session, events: seq<Event>)

  /**
   * `callCommand(command, arg)`: nothing for an undefined command; otherwise the session
   * records the command and its plugin's `onInput` runs with the session as `this`.
   */
  function CallCommand(env: Env, s: Session, c: Option<Cmd>, arg: string): (r: Call)
    ensures c.None? ==> r == Call(Sync(Undefined), s, [])
    ensures c.Some? ==> r.events == [HandlerCalled(c.value, arg)]
    ensures c.Some? ==> r.session == s.(cmd := c.value.command.key, command := c)
    ensures c.Some? ==> r.reply == env.onInput(r.session, c.value, arg)
  {
    if c.None? then Call(Sync(Undefined), s, [])
    else
      var s' := s.(cmd := c.value.command.key, command := c);
      Call(env.onInput(s', c.value, arg), s', [HandlerCalled(c.value, arg)])
  }

  /**
   * `.catch(msg => { if (msg) return Promise.resolve(msg); })`: a promise reason settles
   * to its value, a truthy plain reason is the answer, a falsy one becomes `undefined`.
   */
  function Catch(reason: Reply): (v: Value)
    ensures reason.Async? ==> v == reason.value
    ensures reason.Sync? && Truthy(reason.value) ==> v == reason.value
    ensures reason.Sync? && !Truthy(reason.value) ==> v == Undefined
    ensures Truthy(v) || v.Undefined? || reason.Async?
  {
    match reason
    case Async(v) => v
    case Sync(v) => if Truthy(v) then v else Undefined
  }

  /**
   * `regexpStage`: the first regexp command whose probe succeeds handles the raw input.
   * A probe that throws is not inside any promise yet, so the stage itself throws.
   */
  function RegexpStage(env: Env, pools: Pools, s: Session): (r: Step)
    ensures FindRegExpMatched(pools.regExpCommands, s.str, env.test).Miss? <==> r.result.PassThrough?
    ensures FindRegExpMatched(pools.regExpCommands, s.str, env.test).Crash? <==> r.result.Raised?
    ensures r.result.Raised? ==> r.result.fault == NoFirstCommand && r.session == s && r.events == []
    ensures !r.result.Skip?
    ensures r.result.PassThrough? ==> r.session == s && r.events == []
    ensures forall e :: e in r.events ==> e.HandlerCalled? && e.arg == s.str
    ensures FindRegExpMatched(pools.regExpCommands, s.str, env.test).Hit? ==>
      var c := pools.regExpCommands[FindRegExpMatched(pools.regExpCommands, s.str, env.test).at];
      && r.result == Resolved(Handle(env, s, c, s.str))
      && r.events == [HandlerCalled(c, s.str)]
      && r.session == s.(cmd := c.command.key, command := Some(c))
  {
    var cs := pools.regExpCommands;
    match FindRegExpMatched(cs, s.str, env.test)
    case Miss => Step(PassThrough, s, [])
    case Crash(_) => Step(Raised(NoFirstCommand), s, [])
    case Hit(i) =>
      var call := CallCommand(env, s, Some(cs[i]), s.str);
      Step(Resolved(call.reply), call.session, call.events)
  }

  /** The combined list of the search stage: plugin-name suggestions first, then provider results. */
  function SearchResults(env: Env, pools: Pools, str: string): seq<Item> {
    FindMatchedPlugins(pools.commands, str) + SearchInContext(env, pools.searchContexts, str).items
  }

  /**
   * `searchStage`: only for input without a space character; a non-empty combined list
   * resolves the keystroke, an empty one ends with `resolve(true)`.
   */
  function SearchStage(env: Env, pools: Pools, s: Session): (r: Step)
    ensures ' ' in s.str ==> r == Step(PassThrough, s, [])
    ensures ' ' !in s.str ==> !r.result.PassThrough? && r.events == SearchInContext(env, pools.searchContexts, s.str).events
    ensures r.session == s
    ensures !r.result.Raised?
    ensures ' ' !in s.str && !SearchInContext(env, pools.searchContexts, s.str).crashed ==>
      (r.result.Skip? <==> SearchResults(env, pools, s.str) == [])
    ensures r.result.Resolved? && r.result.reason.value.Items? ==> r.result.reason == Sync(Items(SearchResults(env, pools, s.str)))
    ensures ' ' !in s.str && SearchInContext(env, pools.searchContexts, s.str).crashed ==>
      r.result == Resolved(Sync(Thrown(ProviderReturnedNothing)))
  {
    if ' ' in s.str then Step(PassThrough, s, [])
    else
      var g := SearchInContext(env, pools.searchContexts, s.str);
      if g.crashed then Step(Resolved(Sync(Thrown(ProviderReturnedNothing))), s, g.events)
      else
        var all := FindMatchedPlugins(pools.commands, s.str) + g.items;
        if |all| > 0 then Step(Resolved(Sync(Items(all))), s, g.events) else Step(Skip, s, g.events)
  }

  /**
   * The matched branch of `commandStage`: record the parse, save the input, track a
   * changed command, and resolve with the handler of `commands[cmd]`, looked up with the
   * typed casing.
   */
  function Dispatch(env: Env, pools: Pools, s: Session, p: Parsed): (r: Step)
    ensures r.result.Resolved?
    ensures forall e :: e in r.events ==> e.HandlerCalled? || e.Tracked? || e.LastCmdSaved?
    ensures |r.events| > 0 && r.events[0] == LastCmdSaved(s.str)
    ensures r.session.lastcmd == Some(p.cmd) && r.session.query == Some(p.query)
    ensures Tracked(p.cmd) in r.events <==> s.lastcmd != Some(p.cmd)
  {
    var s1 := s.(cmd := Some(p.cmd), param := p.flag, query := Some(p.query));
    var changed := s1.lastcmd != s1.cmd;
    var s2 := if changed then s1.(lastcmd := s1.cmd) else s1;
    var tracked := if changed then [Tracked(p.cmd)] else [];
    var call := CallCommand(env, s2, Lookup(pools.commands, p.cmd), p.query);
    var events := [LastCmdSaved(s.str)] + tracked + call.events;
    assert forall e :: e in events ==> e in [LastCmdSaved(s.str)] || e in tracked || e in call.events;
    Step(Resolved(call.reply), call.session, events)
  }

  /**
   * `commandStage(gothrough)`: unless told to go through, parse the input; a match with a
   * non-empty `cmd` is dispatched, anything else passes on.
   */
  function CommandStage(env: Env, pools: Pools, s: Session, gothrough: bool): (r: Step)
    ensures !r.result.Skip? && !r.result.Raised?
    ensures gothrough ==> r == Step(PassThrough, s, [])
    ensures r.result.PassThrough? ==> r.session == s && r.events == []
    ensures forall e :: e in r.events ==> e.HandlerCalled? || e.Tracked? || e.LastCmdSaved?
    ensures !gothrough ==>
      var p := ParseCommand(Keys(pools.commands), s.str);
      (r.result.Resolved? <==> p.Some? && p.value.cmd != "")
  {
    if gothrough then Step(PassThrough, s, [])
    else
      var p := ParseCommand(Keys(pools.commands), s.str);
      if p.None? || p.value.cmd == "" then Step(PassThrough, s, [])
      else Dispatch(env, pools, s, p.value)
  }

  datatype Settled = Settled(value: Value, session: Session, events: seq<Event>)

  /** `defaultStage`: only the first fallback command runs, with the whole input; its reply is not caught. */
  function DefaultStage(env: Env, pools: Pools, s: Session): (r: Settled)
    ensures |pools.otherCommands| == 0 ==> r == Settled(Undefined, s, [])
    ensures |pools.otherCommands| > 0 ==>
      var c := pools.otherCommands[0];
      && r.events == [HandlerCalled(c, s.str)]
      && r.value == env.onInput(s.(cmd := c.command.key, command := Some(c)), c, s.str).value
  {
    if |pools.otherCommands| > 0 then
      var call := CallCommand(env, s, Some(pools.otherCommands[0]), s.str);
      Settled(call.reply.value, call.session, call.events)
    else Settled(Undefined, s, [])
  }

  /**
   * The session at the start of a keystroke: `str` set, `cmd`, `param` and `query`
   * cleared; what the box remembers across keystrokes (`lastcmd`, `command`) survives.
   */
  function Begin(s: Session, str: string): (r: Session)
    ensures r.str == str && r.cmd == Some("") && r.param == Some("") && r.query == Some("")
    ensures r.lastcmd == s.lastcmd && r.command == s.command
  {
    s.(str := str, cmd := Some(""), param := Some(""), query := Some(""))
  }

  /**
   * `onInput(str)`: the empty-input event, or the four stages with short-circuit. Only a
   * throwing regexp probe escapes as an error; everything later runs inside the promise chain.
   */
  function OnInput(env: Env, pools: Pools, s: Session, str: string): (r: Outcome)
    ensures str == "" ==> r == Settles(Undefined, s, [Emptied])
    ensures str != "" ==> r.session.str == str && Emptied !in r.events
    ensures r.Raises? <==> str != "" && FindRegExpMatched(pools.regExpCommands, str, env.test).Crash?
    ensures r.Raises? ==> r.fault == NoFirstCommand && r.events == [] && r.session == Begin(s, str)
  {
    if str == "" then Settles(Undefined, s, [Emptied])
    else
      var s0 := Begin(s, str);
      var r1 := RegexpStage(env, pools, s0);
      if r1.result.Raised? then Raises(r1.result.fault, r1.session, r1.events)
      else if r1.result.Resolved? then Settles(Catch(r1.result.reason), r1.session, r1.events)
      else
        var r2 := SearchStage(env, pools, r1.session);
        if r2.result.Resolved? then Settles(Catch(r2.result.reason), r2.session, r2.events)
        else
          assert Emptied !in r2.events;
          var r3 := CommandStage(env, pools, r2.session, r2.result.Skip?);
          if r3.result.Resolved? then
            assert Emptied !in r3.events;
            Settles(Catch(r3.result.reason), r3.session, r2.events + r3.events)
          else
            var r4 := DefaultStage(env, pools, r3.session);
            assert Emptied !in r4.events;
            Settles(r4.value, r4.session, r2.events + r4.events)
  }

  /** The handler a command receives: the session records the command before the plugin's `onInput` runs. */
  function Handle(env: Env, s: Session, c: Cmd, arg: string): Reply {
    env.onInput(s.(cmd := c.command.key, command := Some(c)), c, arg)
  }

  /**
   * When a regexp command's probe succeeds, that command alone handles the raw input and
   * nothing after the first stage runs: no provider is queried, nothing is parsed or saved.
   */
  lemma RegexpShortCircuits(env: Env, pools: Pools, s: Session, str: string)
    requires str != ""
    requires FindRegExpMatched(pools.regExpCommands, str, env.test).Hit?
    ensures var c := pools.regExpCommands[FindRegExpMatched(pools.regExpCommands, str, env.test).at];
      var r := OnInput(env, pools, s, str);
      && r.events == [HandlerCalled(c, str)]
      && r.Settles? && r.answer == Catch(Handle(env, Begin(s, str), c, str))
  {
    var s0 := Begin(s, str);
    assert s0.str == str;
  }

  /**
   * A regexp command whose plugin has an empty command list makes `onInput` itself throw:
   * the error escapes to the caller instead of settling the keystroke, after the session
   * was reset and before any handler or provider runs.
   */
  lemma RegexpCrash(env: Env, pools: Pools, s: Session, str: string)
    requires str != ""
    requires FindRegExpMatched(pools.regExpCommands, str, env.test).Crash?
    ensures OnInput(env, pools, s, str) == Raises(NoFirstCommand, Begin(s, str), [])
  {
    assert Begin(s, str).str == str;
  }

  /** Input containing a space character never reaches the search providers. */
  lemma SpaceBypassesSearch(env: Env, pools: Pools, s: Session, str: string)
    requires ' ' in str
    ensures forall e :: e in OnInput(env, pools, s, str).events ==> !e.ProviderQueried?
  {
    var s0 := Begin(s, str);
    assert s0.str == str;
  }

  /**
   * Single-word input that no regexp command claims is answered by the search stage when
   * the plugin-name suggestions and the provider results are not both empty: the answer is
   * that combined list, no handler runs and nothing is saved.
   */
  lemma SearchResolves(env: Env, pools: Pools, s: Session, str: string)
    requires str != "" && ' ' !in str
    requires FindRegExpMatched(pools.regExpCommands, str, env.test).Miss?
    requires !SearchInContext(env, pools.searchContexts, str).crashed
    requires SearchResults(env, pools, str) != []
    ensures var r := OnInput(env, pools, s, str);
      && r.Settles? && r.answer == Items(SearchResults(env, pools, str))
      && r.events == SearchInContext(env, pools.searchContexts, str).events
      && r.session == Begin(s, str)
      && forall e :: e in r.events ==> e.ProviderQueried?
  {
    var s0 := Begin(s, str);
    assert s0.str == str;
  }

  /**
   * When the search stage finds nothing, the command stage is told to go through without
   * parsing, so no command is saved or tracked and the first fallback command, if any,
   * produces the answer.
   */
  lemma EmptySearchSkipsParsing(env: Env, pools: Pools, s: Session, str: string)
    requires str != "" && ' ' !in str
    requires FindRegExpMatched(pools.regExpCommands, str, env.test).Miss?
    requires !SearchInContext(env, pools.searchContexts, str).crashed
    requires SearchResults(env, pools, str) == []
    ensures var r := OnInput(env, pools, s, str);
      var d := DefaultStage(env, pools, Begin(s, str));
      && r.Settles? && r.answer == d.value
      && r.events == SearchInContext(env, pools.searchContexts, str).events + d.events
      && forall e :: e in r.events ==> !e.LastCmdSaved? && !e.Tracked?
  {
    var s0 := Begin(s, str);
    var g := SearchInContext(env, pools.searchContexts, str);
    assert RegexpStage(env, pools, s0) == Step(PassThrough, s0, []);
    var r2 := SearchStage(env, pools, s0);
    assert r2 == Step(Skip, s0, g.events);
    assert CommandStage(env, pools, s0, true) == Step(PassThrough, s0, []);
    var d := DefaultStage(env, pools, s0);
    assert OnInput(env, pools, s, str) == Settles(d.value, d.session, g.events + d.events);
    assert forall e :: e in d.events ==> e.HandlerCalled?;
  }

  /**
   * Input the matcher accepts with a non-empty command, past the first two stages, is always
   * settled by the command stage, even when the command is not registered under that exact
   * casing: the input is saved, a change of command is tracked, `lastcmd` follows, and the
   * looked-up command (if any) handles the query, its caught reply being the answer, even an
   * empty list; the fallback never runs.
   */
  lemma KeywordAlwaysTerminates(env: Env, pools: Pools, s: Session, str: string)
    requires ' ' in str
    requires FindRegExpMatched(pools.regExpCommands, str, env.test).Miss?
    requires ParseCommand(Keys(pools.commands), str).Some?
    requires ParseCommand(Keys(pools.commands), str).value.cmd != ""
    ensures var p := ParseCommand(Keys(pools.commands), str).value;
      var r := OnInput(env, pools, s, str);
      var c := Lookup(pools.commands, p.cmd);
      var tracked := if s.lastcmd != Some(p.cmd) then [Tracked(p.cmd)] else [];
      && r.Settles?
      && r.session.lastcmd == Some(p.cmd)
      && r.session.param == p.flag
      && r.session.query == Some(p.query)
      && r.events == [LastCmdSaved(str)] + tracked + (if c.Some? then [HandlerCalled(c.value, p.query)] else [])
      && (c.None? ==> r.answer == Undefined && r.session.cmd == Some(p.cmd))
      && (c.Some? ==> r.answer == Catch(env.onInput(r.session, c.value, p.query)) && r.session.command == c)
  {
    var s0 := Begin(s, str);
    var p := ParseCommand(Keys(pools.commands), str).value;
    assert RegexpStage(env, pools, s0) == Step(PassThrough, s0, []);
    assert SearchStage(env, pools, s0) == Step(PassThrough, s0, []);
    var r3 := Dispatch(env, pools, s0, p);
    assert CommandStage(env, pools, s0, false) == r3;
    assert OnInput(env, pools, s, str) == Settles(Catch(r3.result.reason), r3.session, [] + r3.events);
  }

  /**
   * Single-word input that no regexp command claims, with no provider returning nothing,
   * is answered by the search stage as soon as one provider's promise delivers a non-empty
   * list: the answer is a list holding every item of it.
   */
  lemma PromisedItemsResolve(env: Env, pools: Pools, s: Session, str: string, p: Plugin)
    requires str != "" && ' ' !in str
    requires FindRegExpMatched(pools.regExpCommands, str, env.test).Miss?
    requires forall q :: q in pools.searchContexts ==> !Throws(env.provide(q, str))
    requires p in pools.searchContexts
    requires env.provide(p, str).Async? && env.provide(p, str).value.Items? && env.provide(p, str).value.items != []
    ensures var r := OnInput(env, pools, s, str);
      && r.Settles? && r.answer.Items?
      && forall it :: it in env.provide(p, str).value.items ==> it in r.answer.items
  {
    var order := QueryOrder(env, pools.searchContexts);
    var xs := Contributions(env.provide, order, str);
    assert p in multiset(order);
    var i :| 0 <= i < |order| && order[i] == p;
    forall it | it in env.provide(p, str).value.items
      ensures it in SearchResults(env, pools, str)
    {
      FlattenHas(xs, i, it);
    }
    var its := env.provide(p, str).value.items;
    assert its[0] in SearchResults(env, pools, str);
    SearchResolves(env, pools, s, str);
  }

  /**
   * Single-word input that no regexp command claims, with a provider returning nothing,
   * settles with the thrown error: the providers up to that one were queried, and no
   * handler runs.
   */
  lemma ProviderNothingIsAnswer(env: Env, pools: Pools, s: Session, str: string)
    requires str != "" && ' ' !in str
    requires FindRegExpMatched(pools.regExpCommands, str, env.test).Miss?
    requires SearchInContext(env, pools.searchContexts, str).crashed
    ensures var r := OnInput(env, pools, s, str);
      && r == Settles(Thrown(ProviderReturnedNothing), Begin(s, str), SearchInContext(env, pools.searchContexts, str).events)
      && forall e :: e in r.events ==> e.ProviderQueried?
  {
    var s0 := Begin(s, str);
    assert s0.str == str;
  }

  /** A falsy synchronous reason is swallowed by the final `catch`. */
  lemma FalsyCollapses(v: Value)
    requires !Truthy(v)
    ensures Catch(Sync(v)) == Undefined
  {
  }

  /**
   * Input with a space that no regexp command claims and that does not parse to a non-empty
   * command ends in the fallback stage: the first fallback command's reply value, as it
   * stands, is the answer, and its call is the only event.
   */
  lemma NoParseFallsBack(env: Env, pools: Pools, s: Session, str: string)
    requires ' ' in str
    requires FindRegExpMatched(pools.regExpCommands, str, env.test).Miss?
    requires ParseCommand(Keys(pools.commands), str).None? || ParseCommand(Keys(pools.commands), str).value.cmd == ""
    ensures var d := DefaultStage(env, pools, Begin(s, str));
      OnInput(env, pools, s, str) == Settles(d.value, d.session, d.events)
  {
    var s0 := Begin(s, str);
    assert RegexpStage(env, pools, s0) == Step(PassThrough, s0, []);
    assert SearchStage(env, pools, s0) == Step(PassThrough, s0, []);
    assert CommandStage(env, pools, s0, false) == Step(PassThrough, s0, []);
    assert [] + DefaultStage(env, pools, s0).events == DefaultStage(env, pools, s0).events;
  }

  /**
   * The fallback command's reply is the answer as it stands: unlike the earlier stages it
   * is not passed through the final `catch`, so a falsy value survives.
   */
  lemma DefaultNotCaught(env: Env, pools: Pools, s: Session, str: string)
    requires ' ' in str
    requires FindRegExpMatched(pools.regExpCommands, str, env.test).Miss?
    requires ParseCommand(Keys(pools.commands), str).None?
    requires |pools.otherCommands| > 0
    requires Handle(env, Begin(s, str), pools.otherCommands[0], str) == Sync(Falsy)
    ensures OnInput(env, pools, s, str) == Settles(Falsy, OnInput(env, pools, s, str).session,
                                                   [HandlerCalled(pools.otherCommands[0], str)])
  {
    NoParseFallsBack(env, pools, s, str);
  }
}

=== FILE: registry.dfy ===
/**
 * The keyword-command map `commands`: a JavaScript object used as a dictionary.
 * Its keys enumerate in insertion order (for `for … in`, `Object.keys`) and assigning
 * to an existing key replaces the value but keeps the key's position.
 */
module Registry {
  import opened Wrappers
  import opened Model

  datatype Entry = Entry(key: string, cmd: Cmd)

  type Table = seq<Entry>

  predicate UniqueKeys(t: Table) {
    forall i, j :: 0 <= i < j < |t| ==> t[i].key != t[j].key
  }

  /** `Object.keys(commands)`, in enumeration order. */
  function Keys(t: Table): (ks: seq<string>)
    ensures |ks| == |t|
    ensures forall i :: 0 <= i < |t| ==> ks[i] == t[i].key
  {
    if |t| == 0 then [] else [t[0].key] + Keys(t[1..])
  }

  /** `commands[k]`, with `None` for `undefined`. */
  function Lookup(t: Table, k: string): (r: Option<Cmd>)
    ensures r.None? <==> k !in Keys(t)
    ensures r.Some? ==> exists i :: 0 <= i < |t| && t[i] == Entry(k, r.value)
  {
    if |t| == 0 then None
    else if t[0].key == k then Some(t[0].cmd)
    else Lookup(t[1..], k)
  }

  /** `commands[k] = c`. */
  function Put(t: Table, k: string, c: Cmd): (r: Table)
    ensures k in Keys(t) ==> Keys(r) == Keys(t)
    ensures k !in Keys(t) ==> Keys(r) == Keys(t) + [k]
  {
    if |t| == 0 then [Entry(k, c)]
    else if t[0].key == k then
      assert Keys([Entry(k, c)] + t[1..]) == Keys(t);
      [Entry(k, c)] + t[1..]
    else
      var rest := Put(t[1..], k, c);
      assert Keys([t[0]] + rest) == [t[0].key] + Keys(rest);
      assert Keys(t) == [t[0].key] + Keys(t[1..]);
      [t[0]] + rest
  }

  /** After `commands[k] = c`, `k` maps to `c` and every other key keeps its value. */
  lemma {:induction false} PutLookup(t: Table, k: string, c: Cmd, k': string)
    ensures Lookup(Put(t, k, c), k') == if k' == k then Some(c) else Lookup(t, k')
  {
    if |t| > 0 && t[0].key != k {
      PutLookup(t[1..], k, c, k');
    }
  }

  /** Assigning a key never creates a duplicate key. */
  lemma {:induction false} PutKeepsKeysUnique(t: Table, k: string, c: Cmd)
    requires UniqueKeys(t)
    ensures UniqueKeys(Put(t, k, c))
  {
    var r := Put(t, k, c);
    forall i, j | 0 <= i < j < |r|
      ensures r[i].key != r[j].key
    {
      assert Keys(r)[i] == r[i].key && Keys(r)[j] == r[j].key;
      if k in Keys(t) {
        assert Keys(t)[i] == t[i].key && Keys(t)[j] == t[j].key;
      } else {
        if j < |t| {
          assert Keys(t)[i] == t[i].key && Keys(t)[j] == t[j].key;
        } else {
          assert Keys(t)[i] == t[i].key;
        }
      }
    }
  }
}

=== FILE: search.dfy ===
/**
 * The lookups the resolver performs before parsing: the first regexp command whose test
 * succeeds (`findRegExpMatched`), the keyword keys that contain the typed text
 * (`findMatchedPlugins`), and the fan-out to contextual search providers (`searchInContext`).
 */
module Search {
  import opened Wrappers
  import opened Text
  import opened Model
  import opened Registry

  // ---------------------------------------------------------------------------
  // findRegExpMatched

  /** `plugin.commands[0]`, or `None` where that access throws. */
  function FirstCommand(p: Plugin): (r: Option<Command>)
    ensures r.None? <==> p.commands.None? || p.commands.value == []
    ensures r.Some? ==> r.value == p.commands.value[0]
  {
    if p.commands.Some? && |p.commands.value| > 0 then Some(p.commands.value[0]) else None
  }

  /**
   * The `find` callback `item.regExp && str.match(item.plugin.commands[0].regExp)`:
   * it checks the command's own `regExp` but tests the owning plugin's FIRST command's
   * one, and `str.match(undefined)` always matches. `None` when the callback throws.
   */
  function Probe(c: Cmd, str: string, test: (Pattern, string) -> bool): (r: Option<bool>)
    ensures c.command.regExp.None? ==> r == Some(false)
    ensures r.None? <==> c.command.regExp.Some? && (c.plugin.commands.None? || c.plugin.commands.value == [])
    ensures r == Some(true) <==>
      && c.command.regExp.Some? && c.plugin.commands.Some? && |c.plugin.commands.value| > 0
      && var first := c.plugin.commands.value[0];
         first.regExp.None? || test(first.regExp.value, str)
  {
    if c.command.regExp.None? then Some(false)
    else
      match FirstCommand(c.plugin)
      case None => None
      case Some(first) => Some(first.regExp.None? || test(first.regExp.value, str))
  }

  /** The outcome of `Array.prototype.find`: the index found, none, or the index where the callback threw. */
  datatype Found = Hit(at: nat) | Miss | Crash(at: nat)

  function FindFrom(cs: seq<Cmd>, str: string, test: (Pattern, string) -> bool, from: nat): (r: Found)
    requires from <= |cs|
    ensures r.Miss? <==> forall i :: from <= i < |cs| ==> Probe(cs[i], str, test) == Some(false)
    ensures r.Hit? ==> from <= r.at < |cs| && Probe(cs[r.at], str, test) == Some(true)
    ensures r.Crash? ==> from <= r.at < |cs| && Probe(cs[r.at], str, test).None?
    ensures !r.Miss? ==> forall j :: from <= j < r.at ==> Probe(cs[j], str, test) == Some(false)
    decreases |cs| - from
  {
    if from == |cs| then Miss
    else
      match Probe(cs[from], str, test)
      case None => Crash(from)
      case Some(true) => Hit(from)
      case Some(false) => FindFrom(cs, str, test, from + 1)
  }

  /**
   * `regExpCommands.find(...)`: the first command whose probe succeeds, scanning in order;
   * a probe that throws ends the scan.
   */
  function FindRegExpMatched(cs: seq<Cmd>, str: string, test: (Pattern, string) -> bool): (r: Found)
    ensures r.Miss? <==> forall i :: 0 <= i < |cs| ==> Probe(cs[i], str, test) == Some(false)
    ensures r.Hit? ==> r.at < |cs| && Probe(cs[r.at], str, test) == Some(true)
    ensures r.Crash? ==> r.at < |cs| && Probe(cs[r.at], str, test).None?
    ensures !r.Miss? ==> forall j :: 0 <= j < r.at ==> Probe(cs[j], str, test) == Some(false)
  {
    FindFrom(cs, str, test, 0)
  }

  /**
   * A plugin registers two regexp commands, `a` first; only `b`'s own pattern matches the
   * input. The finder still misses, because every probe tests `a`'s pattern.
   */
  lemma RegExpTestsFirstCommandOfPlugin(a: Command, b: Command, plugin: Plugin, str: string, test: (Pattern, string) -> bool)
    requires a.regExp.Some? && b.regExp.Some?
    requires plugin.commands == Some([a, b])
    requires !test(a.regExp.value, str) && test(b.regExp.value, str)
    ensures FindRegExpMatched([Cmd(a, plugin.name, plugin), Cmd(b, plugin.name, plugin)], str, test).Miss?
  {
    var cs := [Cmd(a, plugin.name, plugin), Cmd(b, plugin.name, plugin)];
    assert Probe(cs[0], str, test) == Some(false);
    assert Probe(cs[1], str, test) == Some(false);
  }

  // ---------------------------------------------------------------------------
  // findMatchedPlugins

  /** The suggestion item `{key: 'plugins', id: key, icon, title: `${key}: ${title}`, desc: subtitle || ''}`. */
  function PluginItem(k: string, c: Cmd): Item {
    Item(Some("plugins"), k, c.command.icon, None, k + ": " + c.command.title.GetOr("undefined"),
         Some(c.command.subtitle.GetOr("")), false)
  }

  /** One suggestion per keyword key containing `query`, in key order. */
  function FindMatchedPlugins(t: Table, query: string): (r: seq<Item>)
    ensures forall i :: 0 <= i < |r| ==> r[i].key == Some("plugins") && r[i].id in Keys(t)
  {
    if |t| == 0 then []
    else
      var rest := FindMatchedPlugins(t[1..], query);
      assert Keys(t) == [t[0].key] + Keys(t[1..]);
      if Contains(t[0].key, query) then [PluginItem(t[0].key, t[0].cmd)] + rest else rest
  }

  predicate DistinctIds(r: seq<Item>) {
    forall i, j :: 0 <= i < j < |r| ==> r[i].id != r[j].id
  }

  lemma UniqueTail(t: Table)
    requires |t| > 0 && UniqueKeys(t)
    ensures UniqueKeys(t[1..]) && t[0].key !in Keys(t[1..])
  {
    assert Keys(t) == [t[0].key] + Keys(t[1..]);
  }

  /** Only keys that contain the query are suggested. */
  lemma {:induction false} FindMatchedPluginsSound(t: Table, query: string, i: nat)
    requires i < |FindMatchedPlugins(t, query)|
    ensures Contains(FindMatchedPlugins(t, query)[i].id, query)
  {
    var r := FindMatchedPlugins(t, query);
    var rest := FindMatchedPlugins(t[1..], query);
    if Contains(t[0].key, query) {
      assert r == [PluginItem(t[0].key, t[0].cmd)] + rest;
      if i > 0 {
        assert r[i] == rest[i - 1];
        FindMatchedPluginsSound(t[1..], query, i - 1);
      }
    } else {
      assert r == rest;
      FindMatchedPluginsSound(t[1..], query, i);
    }
  }

  /** Every keyword key that contains the query is suggested. */
  lemma {:induction false} FindMatchedPluginsComplete(t: Table, query: string, k: string)
    requires k in Keys(t) && Contains(k, query)
    ensures exists i :: 0 <= i < |FindMatchedPlugins(t, query)| && FindMatchedPlugins(t, query)[i].id == k
  {
    var r := FindMatchedPlugins(t, query);
    var rest := FindMatchedPlugins(t[1..], query);
    assert Keys(t) == [t[0].key] + Keys(t[1..]);
    if k == t[0].key {
      assert r[0].id == k;
    } else {
      FindMatchedPluginsComplete(t[1..], query, k);
      var i :| 0 <= i < |rest| && rest[i].id == k;
      if Contains(t[0].key, query) {
        assert r[i + 1] == rest[i];
      } else {
        assert r == rest;
      }
    }
  }

  /** With unique keys, no key is suggested twice. */
  lemma {:induction false} FindMatchedPluginsDistinct(t: Table, query: string)
    requires UniqueKeys(t)
    ensures DistinctIds(FindMatchedPlugins(t, query))
  {
    if |t| > 0 {
      var r := FindMatchedPlugins(t, query);
      var rest := FindMatchedPlugins(t[1..], query);
      UniqueTail(t);
      FindMatchedPluginsDistinct(t[1..], query);
      if Contains(t[0].key, query) {
        var x := PluginItem(t[0].key, t[0].cmd);
        assert r == [x] + rest;
        assert forall k :: 0 <= k < |rest| ==> rest[k].id in Keys(t[1..]);
        DistinctCons(x, rest);
      } else {
        assert r == rest;
      }
    }
  }

  lemma DistinctCons(x: Item, rest: seq<Item>)
    requires DistinctIds(rest)
    requires forall k :: 0 <= k < |rest| ==> rest[k].id != x.id
    ensures DistinctIds([x] + rest)
  {
    var r := [x] + rest;
    forall i, j | 0 <= i < j < |r|
      ensures r[i].id != r[j].id
    {
      assert r[j] == rest[j - 1];
      if i > 0 {
        assert r[i] == rest[i - 1];
      }
    }
  }

  /** Each suggestion describes the command registered under its key. */
  lemma {:induction false} FindMatchedPluginsDescribe(t: Table, query: string, i: nat)
    requires UniqueKeys(t)
    requires i < |FindMatchedPlugins(t, query)|
    ensures var it := FindMatchedPlugins(t, query)[i];
      Lookup(t, it.id).Some? && it == PluginItem(it.id, Lookup(t, it.id).value)
  {
    var r := FindMatchedPlugins(t, query);
    var rest := FindMatchedPlugins(t[1..], query);
    UniqueTail(t);
    if Contains(t[0].key, query) {
      assert r == [PluginItem(t[0].key, t[0].cmd)] + rest;
      if i > 0 {
        assert r[i] == rest[i - 1];
        FindMatchedPluginsDescribe(t[1..], query, i - 1);
        assert rest[i - 1].id in Keys(t[1..]);
        assert Lookup(t, rest[i - 1].id) == Lookup(t[1..], rest[i - 1].id);
      }
    } else {
      assert r == rest;
      FindMatchedPluginsDescribe(t[1..], query, i);
      assert rest[i].id in Keys(t[1..]);
      assert Lookup(t, rest[i].id) == Lookup(t[1..], rest[i].id);
    }
  }

  // ---------------------------------------------------------------------------
  // searchInContext

  /** underscore's `sortBy(…, 'host')` comparator: `a` strictly before `b`; an absent host sorts last. */
  predicate HostBefore(a: Option<string>, b: Option<string>) {
    (a.Some? && b.None?) || (a.Some? && b.Some? && LexLess(a.value, b.value))
  }

  lemma HostBeforeAsymmetric(a: Option<string>, b: Option<string>)
    requires HostBefore(a, b)
    ensures !HostBefore(b, a)
  {
    if a.Some? && b.Some? && HostBefore(b, a) {
      LexLessTransitive(a.value, b.value, a.value);
      LexLessIrreflexive(a.value);
    }
  }

  /** "Not strictly after" is transitive. */
  lemma HostNotAfterTransitive(a: Option<string>, b: Option<string>, c: Option<string>)
    requires !HostBefore(b, a) && !HostBefore(c, b)
    ensures !HostBefore(c, a)
  {
    if a.Some? && b.Some? && c.Some? && LexLess(c.value, a.value) && a.value != b.value {
      LexLessTotal(a.value, b.value);
      if LexLess(a.value, b.value) {
        LexLessTransitive(c.value, a.value, b.value);
      }
    }
  }

  predicate HostSorted(s: seq<Plugin>) {
    forall i, j :: 0 <= i < j < |s| ==> !HostBefore(s[j].host, s[i].host)
  }

  /** Putting in front an element no later element sorts strictly before keeps the order. */
  lemma ConsSorted(h: Plugin, rest: seq<Plugin>)
    requires HostSorted(rest)
    requires forall j :: 0 <= j < |rest| ==> !HostBefore(rest[j].host, h.host)
    ensures HostSorted([h] + rest)
  {
    var r := [h] + rest;
    forall i, j | 0 <= i < j < |r|
      ensures !HostBefore(r[j].host, r[i].host)
    {
      assert r[j] == rest[j - 1];
      if i > 0 {
        assert r[i] == rest[i - 1];
      }
    }
  }

  /** Inserts `x` before the first element that does not sort strictly before it. */
  function InsertByHost(x: Plugin, s: seq<Plugin>): (r: seq<Plugin>)
    requires HostSorted(s)
    ensures HostSorted(r)
    ensures multiset(r) == multiset(s) + multiset{x}
  {
    if |s| == 0 then [x]
    else if !HostBefore(s[0].host, x.host) then
      assert forall j :: 0 <= j < |s| ==> !HostBefore(s[j].host, x.host) by {
        forall j | 0 <= j < |s| ensures !HostBefore(s[j].host, x.host) {
          if j > 0 {
            HostNotAfterTransitive(x.host, s[0].host, s[j].host);
          }
        }
      }
      ConsSorted(x, s);
      [x] + s
    else
      HostBeforeAsymmetric(s[0].host, x.host);
      var rest := InsertByHost(x, s[1..]);
      assert s == [s[0]] + s[1..];
      assert forall j :: 0 <= j < |rest| ==> !HostBefore(rest[j].host, s[0].host) by {
        forall j | 0 <= j < |rest| ensures !HostBefore(rest[j].host, s[0].host) {
          assert rest[j] in multiset(rest);
          if rest[j] != x {
            assert rest[j] in multiset(s[1..]);
            var k :| 0 <= k < |s[1..]| && s[1..][k] == rest[j];
            assert s[k + 1] == rest[j];
          }
        }
      }
      ConsSorted(s[0], rest);
      [s[0]] + rest
  }

  /** `_.sortBy(contexts, 'host')`: providers ordered by host, absent hosts last. */
  function SortByHost(s: seq<Plugin>): (r: seq<Plugin>)
    ensures HostSorted(r)
    ensures multiset(r) == multiset(s)
  {
    if |s| == 0 then []
    else
      assert s == [s[0]] + s[1..];
      InsertByHost(s[0], SortByHost(s[1..]))
  }

  /** A provider reply that makes `searchRet.then` throw: `undefined` or `null` returned synchronously. */
  predicate Throws(r: Reply) {
    r.Sync? && r.value.Undefined?
  }

  /**
   * What one provider adds: only a promise's non-empty list. A synchronous list is lost
   * because `res.concat(searchRet)` is never assigned.
   */
  function Contribution(r: Reply): seq<Item> {
    if r.Async? && r.value.Items? then r.value.items else []
  }

  /** What each provider adds, in provider order. */
  function Contributions(provide: (Plugin, string) -> Reply, ps: seq<Plugin>, query: string): seq<seq<Item>> {
    seq(|ps|, i requires 0 <= i < |ps| => Contribution(provide(ps[i], query)))
  }

  /**
   * underscore's `_.flatten` of a list of lists, in order. It flattens deeply, but the
   * inner elements are item objects, so flattening stops after one level.
   */
  function Flatten(xss: seq<seq<Item>>): (r: seq<Item>)
    ensures |r| == 0 <==> forall i :: 0 <= i < |xss| ==> xss[i] == []
  {
    if |xss| == 0 then [] else xss[0] + Flatten(xss[1..])
  }

  /** Every item of every inner list is in the flattened list. */
  lemma {:induction false} FlattenHas(xss: seq<seq<Item>>, i: nat, it: Item)
    requires i < |xss| && it in xss[i]
    ensures it in Flatten(xss)
  {
    if i > 0 {
      assert xss[1..][i - 1] == xss[i];
      FlattenHas(xss[1..], i - 1, it);
    }
  }

  lemma ContributionsCons(provide: (Plugin, string) -> Reply, ps: seq<Plugin>, query: string)
    requires |ps| > 0
    ensures Flatten(Contributions(provide, ps, query)) ==
      Contribution(provide(ps[0], query)) + Flatten(Contributions(provide, ps[1..], query))
  {
    var xs := Contributions(provide, ps, query);
    assert xs[1..] == Contributions(provide, ps[1..], query);
  }

  /** The items gathered, the providers queried, and whether a provider reply threw. */
  datatype Gathered = Gathered(items: seq<Item>, events: seq<Event>, crashed: bool)

  function Gather(provide: (Plugin, string) -> Reply, ps: seq<Plugin>, query: string): (g: Gathered)
    ensures !g.crashed <==> forall i :: 0 <= i < |ps| ==> !Throws(provide(ps[i], query))
    ensures !g.crashed ==> g.items == Flatten(Contributions(provide, ps, query))
    ensures !g.crashed ==> |g.events| == |ps| && forall i :: 0 <= i < |ps| ==> g.events[i] == ProviderQueried(ps[i], query)
    ensures forall e :: e in g.events ==> e.ProviderQueried? && e.query == query
  {
    if |ps| == 0 then Gathered([], [], false)
    else
      var reply := provide(ps[0], query);
      if Throws(reply) then Gathered([], [ProviderQueried(ps[0], query)], true)
      else
        var rest := Gather(provide, ps[1..], query);
        ContributionsCons(provide, ps, query);
        var g := Gathered(Contribution(reply) + rest.items, [ProviderQueried(ps[0], query)] + rest.events, rest.crashed);
        assert !g.crashed ==> forall i :: 0 <= i < |ps| ==> g.events[i] == ProviderQueried(ps[i], query) by {
          if !g.crashed {
            forall i | 0 <= i < |ps| ensures g.events[i] == ProviderQueried(ps[i], query) {
              if i > 0 {
                assert g.events[i] == rest.events[i - 1];
                assert ps[1..][i - 1] == ps[i];
              }
            }
          }
        }
        g
  }

  /** One `ProviderQueried` event per provider, in order. */
  function Queries(ps: seq<Plugin>, query: string): seq<Event>
  {
    seq(|ps|, i requires 0 <= i < |ps| => ProviderQueried(ps[i], query))
  }

  /**
   * A provider returning nothing stops the gathering: some provider `k` throws, none
   * before it does, and exactly the providers up to and including `k` were queried.
   */
  lemma {:induction false} GatherCrashPrefix(provide: (Plugin, string) -> Reply, ps: seq<Plugin>, query: string)
    ensures var g := Gather(provide, ps, query);
      g.crashed ==> exists k ::
        && 0 <= k < |ps| && Throws(provide(ps[k], query))
        && (forall i :: 0 <= i < k ==> !Throws(provide(ps[i], query)))
        && g.events == Queries(ps[..k + 1], query)
  {
    if |ps| > 0 && Gather(provide, ps, query).crashed {
      if Throws(provide(ps[0], query)) {
        assert Gather(provide, ps, query).events == Queries(ps[..1], query);
      } else {
        var tail := ps[1..];
        GatherCrashPrefix(provide, tail, query);
        var k :| && 0 <= k < |tail| && Throws(provide(tail[k], query))
                 && (forall i :: 0 <= i < k ==> !Throws(provide(tail[i], query)))
                 && Gather(provide, tail, query).events == Queries(tail[..k + 1], query);
        QueriesCons(ps, k, query);
        assert forall i :: 0 <= i < k + 1 ==> !Throws(provide(ps[i], query)) by {
          forall i | 0 <= i < k + 1 ensures !Throws(provide(ps[i], query)) {
            if i > 0 { assert tail[i - 1] == ps[i]; }
          }
        }
        assert tail[k] == ps[k + 1];
      }
    }
  }

  lemma QueriesCons(ps: seq<Plugin>, k: nat, query: string)
    requires k + 1 < |ps|
    ensures [ProviderQueried(ps[0], query)] + Queries(ps[1..][..k + 1], query) == Queries(ps[..k + 2], query)
  {
  }

  /**
   * Synchronous provider lists are lost: when no provider answers with a promise, the
   * providers contribute nothing, whatever lists they return.
   */
  lemma SyncListsDropped(provide: (Plugin, string) -> Reply, ps: seq<Plugin>, query: string)
    requires forall i :: 0 <= i < |ps| ==> provide(ps[i], query).Sync?
    ensures !Gather(provide, ps, query).crashed ==> Gather(provide, ps, query).items == []
  {
    var xs := Contributions(provide, ps, query);
    assert forall i :: 0 <= i < |xs| ==> xs[i] == [];
  }

  /** The providers in the order `searchInContext` queries them. */
  function QueryOrder(env: Env, contexts: seq<Plugin>): (r: seq<Plugin>)
    ensures multiset(r) == multiset(contexts) && |r| == |contexts|
    ensures env.inContent ==> HostSorted(r)
    ensures !env.inContent ==> r == contexts
  {
    if env.inContent then
      var r := SortByHost(contexts);
      assert |r| == |multiset(r)| == |multiset(contexts)| == |contexts|;
      r
    else contexts
  }

  /** Whether some provider returns nothing does not depend on the order they are asked in. */
  lemma NoThrowInAnyOrder(provide: (Plugin, string) -> Reply, order: seq<Plugin>, contexts: seq<Plugin>, query: string)
    requires multiset(order) == multiset(contexts)
    ensures (forall i :: 0 <= i < |order| ==> !Throws(provide(order[i], query))) <==>
            (forall p :: p in contexts ==> !Throws(provide(p, query)))
  {
    if forall i :: 0 <= i < |order| ==> !Throws(provide(order[i], query)) {
      forall p | p in contexts ensures !Throws(provide(p, query)) {
        assert p in multiset(order);
        var i :| 0 <= i < |order| && order[i] == p;
      }
    }
    if forall p :: p in contexts ==> !Throws(provide(p, query)) {
      forall i | 0 <= i < |order| ensures !Throws(provide(order[i], query)) {
        assert order[i] in multiset(contexts);
      }
    }
  }

  /**
   * `searchInContext(query)`: every provider is queried once, in registration order or
   * sorted by host inside a content page; the stage throws iff some provider returns
   * nothing, and otherwise gathers every promise's list in query order.
   */
  function SearchInContext(env: Env, contexts: seq<Plugin>, query: string): (g: Gathered)
    ensures !g.crashed <==> forall p :: p in contexts ==> !Throws(env.provide(p, query))
    ensures !g.crashed ==>
      var order := QueryOrder(env, contexts);
      && |g.events| == |contexts|
      && (forall i :: 0 <= i < |order| ==> g.events[i] == ProviderQueried(order[i], query))
      && g.items == Flatten(Contributions(env.provide, order, query))
    ensures g.crashed ==>
      var order := QueryOrder(env, contexts);
      exists k ::
        && 0 <= k < |order| && Throws(env.provide(order[k], query))
        && (forall i :: 0 <= i < k ==> !Throws(env.provide(order[i], query)))
        && g.events == Queries(order[..k + 1], query)
  {
    var order := QueryOrder(env, contexts);
    NoThrowInAnyOrder(env.provide, order, contexts, query);
    GatherCrashPrefix(env.provide, order, query);
    var g := Gather(env.provide, order, query);
    assert !g.crashed ==> |g.events| == |order|;
    g
  }
}

=== FILE: text.dfy ===
/**
 * Character classes and string predicates of ECMAScript that the pipeline relies on:
 * the `\s`, `\w` and `.` classes of a non-Unicode regular expression, ASCII case folding,
 * `String.prototype.indexOf` used as a containment test, and the `<` ordering on strings.
 */
module Text {

  /** ECMAScript `\s`: WhiteSpace and LineTerminator code points. */
  predicate IsSpace(c: char) {
    || c == ' ' || c == '\t' || c == '\n' || c == '\U{B}' || c == '\U{C}' || c == '\r'
    || c == '\U{A0}' || c == '\U{1680}' || ('\U{2000}' <= c <= '\U{200A}')
    || c == '\U{2028}' || c == '\U{2029}' || c == '\U{202F}' || c == '\U{205F}'
    || c == '\U{3000}' || c == '\U{FEFF}'
  }

  /** The code points that `.` does not match (outside dotAll mode). */
  predicate IsLineTerminator(c: char) {
    c == '\n' || c == '\r' || c == '\U{2028}' || c == '\U{2029}'
  }

  /** ECMAScript `\w`. */
  predicate IsWordChar(c: char) {
    ('a' <= c <= 'z') || ('A' <= c <= 'Z') || ('0' <= c <= '9') || c == '_'
  }

  predicate NoLineBreak(s: string) {
    forall i :: 0 <= i < |s| ==> !IsLineTerminator(s[i])
  }

  /** Canonicalisation of an `i`-flagged pattern, restricted to ASCII letters. */
  function Fold(c: char): (u: char)
    ensures 'a' <= c <= 'z' ==> u != c && 'A' <= u <= 'Z'
    ensures !('a' <= c <= 'z') ==> u == c
  {
    if 'a' <= c <= 'z' then (c as int - 32) as char else c
  }

  /** Case-insensitive equality of two strings under `Fold`. */
  predicate FoldEq(a: string, b: string) {
    |a| == |b| && forall i :: 0 <= i < |a| ==> Fold(a[i]) == Fold(b[i])
  }

  /** `String.prototype.toLowerCase`, restricted to ASCII letters. */
  function ToLower(s: string): (r: string)
    ensures |r| == |s|
    ensures FoldEq(r, s)
    ensures forall i :: 0 <= i < |r| ==> !('A' <= r[i] <= 'Z')
  {
    if |s| == 0 then ""
    else
      var c := s[0];
      [if 'A' <= c <= 'Z' then (c as int + 32) as char else c] + ToLower(s[1..])
  }

  /** `s.indexOf(sub) !== -1`. */
  predicate Contains(s: string, sub: string)
    decreases |s|
  {
    sub <= s || (|s| > 0 && Contains(s[1..], sub))
  }

  /** `a < b` on JavaScript strings: code-unit lexicographic order, a proper prefix first. */
  predicate LexLess(a: string, b: string)
    decreases |a|
  {
    if |a| == 0 then |b| > 0
    else if |b| == 0 then false
    else if a[0] != b[0] then a[0] < b[0]
    else LexLess(a[1..], b[1..])
  }

  lemma {:induction false} LexLessIrreflexive(a: string)
    ensures !LexLess(a, a)
    decreases |a|
  {
    if |a| > 0 {
      LexLessIrreflexive(a[1..]);
    }
  }

  lemma {:induction false} LexLessTransitive(a: string, b: string, c: string)
    requires LexLess(a, b) && LexLess(b, c)
    ensures LexLess(a, c)
    decreases |a|
  {
    if |a| > 0 && a[0] == b[0] && b[0] == c[0] {
      LexLessTransitive(a[1..], b[1..], c[1..]);
    }
  }

  /** Two distinct strings are always ordered one way or the other. */
  lemma {:induction false} LexLessTotal(a: string, b: string)
    requires a != b
    ensures LexLess(a, b) || LexLess(b, a)
    decreases |a|
  {
    if |a| > 0 && |b| > 0 && a[0] == b[0] {
      LexLessTotal(a[1..], b[1..]);
    }
  }
}

=== FILE: usage.dfy ===
/**
 * The usage counter of the extension-enabling plugin: for every extension id the number
 * of times it was chosen under each query, kept in synced storage, and the ranking of
 * disabled extensions by that number.
 */
module Usage {
  import opened Wrappers
  import opened Text

  /** How often one extension was chosen under one query, and when that query was first recorded. */
  datatype Usage = Usage(num: int, update: int)

  /** The stored record of one extension id. */
  datatype Record = Record(id: string, querys: map<string, Usage>)

  /** The `ext` object in storage: extension id to record. */
  type Store = map<string, Record>

  /** The contents of storage under `ext`; a first run reads an empty object. */
  function Info(data: Option<Store>): Store {
    data.GetOr(map[])
  }

  /** `createObj4Storage(id, query)`, with the clock reading `now` as a parameter. */
  function CreateObj4Storage(id: string, query: string, now: int): (r: Record)
    ensures r.id == id
    ensures r.querys.Keys == {query}
    ensures r.querys[query].num == 1 && r.querys[query].update == now
  {
    Record(id, map[query := Usage(1, now)])
  }

  /**
   * The record update inside `addRecord("ext", query, id)`: an unseen id gets a fresh
   * record; a seen id with a seen query counts one more; a seen id with a new query gets
   * that query with count one. Nothing else in the store changes.
   */
  function AddRecord(data: Option<Store>, id: string, query: string, now: int): (r: Store)
    ensures r.Keys == Info(data).Keys + {id}
    ensures forall other :: other in Info(data) && other != id ==> r[other] == Info(data)[other]
    ensures id !in Info(data) ==> r[id] == CreateObj4Storage(id, query, now)
    ensures id in Info(data) ==> r[id].id == Info(data)[id].id
    ensures id in Info(data) ==> r[id].querys.Keys == Info(data)[id].querys.Keys + {query}
    ensures id in Info(data) ==> forall q :: q in Info(data)[id].querys && q != query ==>
      r[id].querys[q] == Info(data)[id].querys[q]
    ensures id in Info(data) && query in Info(data)[id].querys ==>
      var u := Info(data)[id].querys[query];
      r[id].querys[query] == Usage(u.num + 1, u.update)
    ensures id in Info(data) && query !in Info(data)[id].querys ==> r[id].querys[query] == Usage(1, now)
  {
    var info := Info(data);
    if id !in info then info[id := CreateObj4Storage(id, query, now)]
    else
      var obj := info[id];
      if query in obj.querys then
        var u := obj.querys[query];
        info[id := obj.(querys := obj.querys[query := u.(num := u.num + 1)])]
      else
        info[id := obj.(querys := obj.querys[query := Usage(1, now)])]
  }

  /** The count stored for `id` under `query`, zero when either is missing. */
  function Count(store: Store, id: string, query: string): int {
    if id in store && query in store[id].querys then store[id].querys[query].num else 0
  }

  /** Recording a choice raises its own count by exactly one and leaves every other count alone. */
  lemma AddRecordCount(data: Option<Store>, id: string, query: string, now: int, id': string, query': string)
    ensures Count(AddRecord(data, id, query, now), id', query') ==
      Count(Info(data), id', query') + (if id' == id && query' == query then 1 else 0)
  {
  }

  /** An installed extension as the management interface reports it. */
  datatype Ext = Ext(id: string, name: string, enabled: bool)

  /** An extension annotated with its count for the typed query. */
  datatype Ranked = Ranked(ext: Ext, num: int, update: Option<int>)

  /**
   * The annotation in `sortExtensions`: an extension without a record, or without an
   * entry for the query, gets count zero and no date; every other gets the stored count
   * and date.
   */
  function Annotate(store: Store, exts: seq<Ext>, key: string): (r: seq<Ranked>)
    ensures |r| == |exts|
    ensures forall i :: 0 <= i < |r| ==> r[i].ext == exts[i] && r[i].num == Count(store, exts[i].id, key)
    ensures forall i :: 0 <= i < |r| ==> (r[i].update.Some? <==> exts[i].id in store && key in store[exts[i].id].querys)
  {
    seq(|exts|, i requires 0 <= i < |exts| =>
      var id := exts[i].id;
      if id in store && key in store[id].querys then
        Ranked(exts[i], store[id].querys[key].num, Some(store[id].querys[key].update))
      else Ranked(exts[i], 0, None))
  }

  /** Larger counts first. */
  predicate ByNum(r: seq<Ranked>) {
    forall i, j :: 0 <= i < j < |r| ==> r[i].num >= r[j].num
  }

  /** Putting in front an element whose count is at least the next one's keeps the order. */
  lemma ConsByNum(h: Ranked, rest: seq<Ranked>)
    requires ByNum(rest)
    requires |rest| > 0 ==> h.num >= rest[0].num
    ensures ByNum([h] + rest)
  {
    var r := [h] + rest;
    forall i, j | 0 <= i < j < |r|
      ensures r[i].num >= r[j].num
    {
      assert r[j] == rest[j - 1];
      if i > 0 {
        assert r[i] == rest[i - 1];
      } else if j > 1 {
        assert rest[0].num >= rest[j - 1].num;
      }
    }
  }

  /**
   * Puts `x` before the first element whose count is not larger, so that among equal
   * counts the earlier-inserted element stays first.
   */
  function InsertByNum(x: Ranked, t: seq<Ranked>): (r: seq<Ranked>)
    ensures ByNum(t) ==> ByNum(r)
    ensures multiset(r) == multiset(t) + multiset{x}
    ensures |r| == |t| + 1
    ensures r[0] == x || (|t| > 0 && r[0] == t[0])
  {
    if |t| == 0 || x.num >= t[0].num then
      assert ByNum(t) ==> ByNum([x] + t) by {
        if ByNum(t) {
          ConsByNum(x, t);
        }
      }
      [x] + t
    else
      var rest := InsertByNum(x, t[1..]);
      assert t == [t[0]] + t[1..];
      assert ByNum(t) ==> ByNum([t[0]] + rest) by {
        if ByNum(t) {
          assert |t| > 1 ==> t[0].num >= t[1].num;
          ConsByNum(t[0], rest);
        }
      }
      [t[0]] + rest
  }

  /**
   * `matchExts.sort(sortExtFn)`: descending by count. Equal counts compare as NaN, which
   * the engine's stable sort treats as equal, so their input order is kept.
   */
  function SortByNum(s: seq<Ranked>): (r: seq<Ranked>)
    ensures ByNum(r)
    ensures multiset(r) == multiset(s)
    ensures |r| == |s|
  {
    if |s| == 0 then []
    else
      assert s == [s[0]] + s[1..];
      InsertByNum(s[0], SortByNum(s[1..]))
  }

  /** The elements of `s` with count `n`, in order. */
  function WithNum(s: seq<Ranked>, n: int): (r: seq<Ranked>)
    ensures |r| <= |s|
  {
    if |s| == 0 then []
    else (if s[0].num == n then [s[0]] else []) + WithNum(s[1..], n)
  }

  /** `WithNum` unfolded once on an explicit cons. */
  lemma WithNumCons(h: Ranked, t: seq<Ranked>, n: int)
    ensures WithNum([h] + t, n) == (if h.num == n then [h] else []) + WithNum(t, n)
  {
    assert ([h] + t)[0] == h;
    assert ([h] + t)[1..] == t;
  }

  /** Two prefixes of which one is empty can be swapped. */
  lemma SwapEmpty(a: seq<Ranked>, b: seq<Ranked>, c: seq<Ranked>)
    requires a == [] || b == []
    ensures a + (b + c) == b + (a + c)
  {
  }

  /** Inserting keeps the elements of one count in order, `x` placed before the equal ones it is inserted among. */
  lemma {:induction false} InsertByNumStable(x: Ranked, t: seq<Ranked>, n: int)
    ensures WithNum(InsertByNum(x, t), n) == (if x.num == n then [x] else []) + WithNum(t, n)
    decreases |t|
  {
    if |t| == 0 || x.num >= t[0].num {
      assert InsertByNum(x, t) == [x] + t;
      WithNumCons(x, t, n);
    } else {
      var rest := InsertByNum(x, t[1..]);
      var h0 := if t[0].num == n then [t[0]] else [];
      var hx := if x.num == n then [x] else [];
      assert InsertByNum(x, t) == [t[0]] + rest;
      WithNumCons(t[0], rest, n);
      InsertByNumStable(x, t[1..], n);
      assert t == [t[0]] + t[1..];
      WithNumCons(t[0], t[1..], n);
      assert h0 == [] || hx == [];
      SwapEmpty(h0, hx, WithNum(t[1..], n));
    }
  }

  /** The sort is stable: the extensions sharing a count keep their relative order. */
  lemma {:induction false} SortByNumStable(s: seq<Ranked>, n: int)
    ensures WithNum(SortByNum(s), n) == WithNum(s, n)
    decreases |s|
  {
    if |s| > 0 {
      SortByNumStable(s[1..], n);
      InsertByNumStable(s[0], SortByNum(s[1..]), n);
    }
  }

  /** After sorting, an extension with a strictly larger count comes first. */
  lemma LargerCountFirst(s: seq<Ranked>, i: nat, j: nat)
    requires i < |SortByNum(s)| && j < |SortByNum(s)|
    requires SortByNum(s)[i].num > SortByNum(s)[j].num
    ensures i < j
  {
  }

  /** Whether `getExtensions(key, enabled)` keeps `e`. */
  predicate Keeps(e: Ext, key: string, enabled: bool, matchText: (string, string) -> bool) {
    matchText(key, e.name) && e.enabled == enabled
  }

  /** The extensions of `all` the filter keeps, in order. */
  function Kept(all: seq<Ext>, key: string, enabled: bool, matchText: (string, string) -> bool): seq<Ext> {
    if |all| == 0 then []
    else (if Keeps(all[0], key, enabled, matchText) then [all[0]] else []) + Kept(all[1..], key, enabled, matchText)
  }

  lemma {:induction false} KeptMembers(all: seq<Ext>, key: string, enabled: bool, matchText: (string, string) -> bool)
    ensures var r := Kept(all, key, enabled, matchText);
      && (forall e :: e in r <==> e in all && Keeps(e, key, enabled, matchText))
      && |r| <= |all|
  {
    if |all| > 0 {
      KeptMembers(all[1..], key, enabled, matchText);
      assert all == [all[0]] + all[1..];
    }
  }

  lemma KeptCons(h: Ext, t: seq<Ext>, key: string, enabled: bool, matchText: (string, string) -> bool)
    ensures Kept([h] + t, key, enabled, matchText) ==
      (if Keeps(h, key, enabled, matchText) then [h] else []) + Kept(t, key, enabled, matchText)
  {
    assert ([h] + t)[0] == h;
    assert ([h] + t)[1..] == t;
  }

  lemma {:induction false} KeptAppend(a: seq<Ext>, b: seq<Ext>, key: string, enabled: bool,
                                      matchText: (string, string) -> bool)
    ensures Kept(a + b, key, enabled, matchText) == Kept(a, key, enabled, matchText) + Kept(b, key, enabled, matchText)
    decreases |a|
  {
    if |a| == 0 {
      assert a + b == b;
    } else {
      var h := a[0];
      var head := if Keeps(h, key, enabled, matchText) then [h] else [];
      var ka := Kept(a[1..], key, enabled, matchText);
      var kb := Kept(b, key, enabled, matchText);
      assert a + b == [h] + (a[1..] + b);
      KeptCons(h, a[1..] + b, key, enabled, matchText);
      KeptAppend(a[1..], b, key, enabled, matchText);
      assert a == [h] + a[1..];
      KeptCons(h, a[1..], key, enabled, matchText);
      assert head + (ka + kb) == (head + ka) + kb;
    }
  }

  /** `getExtensions(key, enabled)`: the extensions whose name the matcher accepts and whose flag is `enabled`, in order. */
  function GetExtensions(all: seq<Ext>, key: string, enabled: bool, matchText: (string, string) -> bool): (r: seq<Ext>)
    ensures forall e :: e in r ==> e in all && matchText(key, e.name) && e.enabled == enabled
    ensures forall e :: e in all && matchText(key, e.name) && e.enabled == enabled ==> e in r
    ensures |r| <= |all|
  {
    KeptMembers(all, key, enabled, matchText);
    Kept(all, key, enabled, matchText)
  }

  /**
   * The filter works piecewise, so it keeps the relative order and the multiplicity of
   * the extensions it keeps: with the kept cases above, this pins the result down.
   */
  lemma GetExtensionsAppend(a: seq<Ext>, b: seq<Ext>, key: string, enabled: bool,
                            matchText: (string, string) -> bool)
    ensures GetExtensions(a + b, key, enabled, matchText) ==
      GetExtensions(a, key, enabled, matchText) + GetExtensions(b, key, enabled, matchText)
  {
    KeptAppend(a, b, key, enabled, matchText);
  }

  lemma RankedWithin(ranked: seq<Ranked>, r: seq<Ranked>)
    requires multiset(r) == multiset(ranked)
    ensures forall x :: x in r ==> x in ranked
  {
    forall x | x in r ensures x in ranked {
      assert x in multiset(r);
    }
  }

  /** A permutation of an annotated list holds an entry for every extension of that list. */
  lemma RankedCovers(exts: seq<Ext>, ranked: seq<Ranked>, r: seq<Ranked>, e: Ext)
    requires |ranked| == |exts| && forall i :: 0 <= i < |ranked| ==> ranked[i].ext == exts[i]
    requires multiset(r) == multiset(ranked)
    requires e in exts
    ensures exists x :: x in r && x.ext == e
  {
    var j :| 0 <= j < |exts| && exts[j] == e;
    assert ranked[j] in multiset(ranked);
    assert ranked[j] in r;
  }

  /**
   * `onInput(key)`: the disabled extensions whose name matches the lower-cased key,
   * annotated with their counts under the key as typed, largest count first.
   */
  function OnInput(all: seq<Ext>, key: string, store: Store, matchText: (string, string) -> bool): (r: seq<Ranked>)
    ensures forall x :: x in r ==> x.ext in all && !x.ext.enabled && matchText(ToLower(key), x.ext.name)
    ensures forall x :: x in r ==> x.num == Count(store, x.ext.id, key)
    ensures ByNum(r)
    ensures |r| == |GetExtensions(all, ToLower(key), false, matchText)|
    ensures forall e :: e in all && !e.enabled && matchText(ToLower(key), e.name) ==>
      exists x :: x in r && x.ext == e
  {
    var matched := GetExtensions(all, ToLower(key), false, matchText);
    var ranked := Annotate(store, matched, key);
    var r := SortByNum(ranked);
    RankedWithin(ranked, r);
    forall e | e in all && !e.enabled && matchText(ToLower(key), e.name)
      ensures exists x :: x in r && x.ext == e
    {
      RankedCovers(matched, ranked, r, e);
    }
    r
  }

  /** A browser call `onEnter` makes: `management.setEnabled(id, enabled)`, or the box's `refresh()`. */
  datatype Effect = SetEnabled(id: string, enabled: bool) | Refresh

  /** What choosing an extension does: the calls made, in order, and the store afterwards. */
  datatype Entered = Entered(effects: seq<Effect>, store: Store)

  /**
   * `onEnter(id)`: the extension is enabled, the list refreshed, and the choice recorded
   * under the query of the keystroke.
   */
  function OnEnter(data: Option<Store>, id: string, query: string, now: int): (r: Entered)
    ensures r.effects == [SetEnabled(id, true), Refresh]
    ensures Count(r.store, id, query) == Count(Info(data), id, query) + 1
    ensures forall id', q :: (id', q) != (id, query) ==> Count(r.store, id', q) == Count(Info(data), id', q)
  {
    AddRecordCount(data, id, query, now, id, query);
    forall id', q | (id', q) != (id, query)
      ensures Count(AddRecord(data, id, query, now), id', q) == Count(Info(data), id', q)
    {
      AddRecordCount(data, id, query, now, id', q);
    }
    Entered([SetEnabled(id, true), Refresh], AddRecord(data, id, query, now))
  }

  /** Choosing an extension raises its rank under the same query by exactly one at the next keystroke. */
  lemma ChosenRanksHigher(data: Option<Store>, id: string, query: string, now: int, exts: seq<Ext>, i: nat)
    requires i < |exts| && exts[i].id == id
    ensures Annotate(OnEnter(data, id, query, now).store, exts, query)[i].num ==
      Annotate(Info(data), exts, query)[i].num + 1
  {
  }
}

=== FILE: wrappers.dfy ===
/** The Option datatype used for every JavaScript value that may be `undefined`. */
module Wrappers {

  /** `None` stands for an absent (`undefined`) value. */
  datatype Option<+T> = None | Some(value: T) {

    /** The value, or `default` when absent (JavaScript's `x || default` on a defined, truthy `x`). */
    function GetOr(default: T): T {
      match this
      case Some(v) => v
      case None => default
    }
  }
}
